=== FILE: README.md ===
# Baseline JPEG block encoder of Simd (SSE4.1 image saver), in Dafny

This project models the integer part of the baseline JPEG encoder in
`src/Simd/SimdSse41ImageSaveJpeg.cpp`:

- `JpegProcessDu` codes one 8 x 8 block. It places the quantised
  coefficients in zigzag order (section A.3.6 and Figure A.6 of ITU-T T.81),
  codes the DC coefficient as its difference from a running predictor
  (section F.1.2.1), and codes the 63 AC coefficients as run/size symbols
  RRRRSSSS with ZRL (`0xF0`) and EOB (`0x00`) (section F.1.2.2). It returns
  the next predictor.
- `JpegWriteBlockSubs` (4:2:0) and `JpegWriteBlockFull` (4:4:4) are the MCU
  drivers. They walk the image in 16 x 16 or 8 x 8 MCUs in raster order.
  They fix the order of the blocks inside an MCU, thread the three DC
  predictors `dc[0..2]` through the blocks. The edge path clamps the source
  coordinates of partial MCUs to the last row and column; the fast path
  clamps nothing (see Findings).

The bit stream is an abstract trace. Every `WriteJpegBits` call becomes one
`Event`: either a Huffman symbol looked up in one of the four tables
(`Huff(table, symbol)`), or a field of magnitude bits (`Extra(bits, size)`).
Each operation is paired with an independent partner, and lemmas connect
the two:

- The encoder's partner is a baseline decoder built from sections F.2.2 and
  F.2.2.1 of T.81. Decoding the trace gives back every block, for one block
  and for a whole image.
- The DC threading is compared with a reference definition: "each block is
  coded against the previous DC of its component".
- The MCU loops are compared with the closed-form raster grid.
- The zigzag table is compared with the geometric diagonal scan.

Files, in dependency order:

| file | module | contents |
|---|---|---|
| magnitude.dfy | Magnitude | SSSS category and magnitude bits (JpegCalcBits as Table F.1 specifies it), and the decoder's EXTEND |
| zigzag.dfy | ZigZag | the coefficient placement loop, the Figure A.6 table, permutation facts |
| entropy.dfy | Entropy | end-of-block search, zero runs, ZRL/EOB emission, `ProcessDu`, symbol counts |
| decode.dfy | Decode | block decoder and the per-block round trip |
| sampling.dfy | Sampling | row and column clamping, the fast path's row pointer, luma block tiling, SubUv taps |
| raster.dfy | Raster | the MCU walk (fast MCUs, then the MCU at the right edge, row by row) and which pixels each MCU holds under the clamped reading (the edge path, or the corrected fast path) |
| driver.dfy | Driver | block order in an MCU, DC predictor threading, whole-image encoding and its round trip |

The floating-point front end is a parameter `fe: BlockRef -> Block`. It
covers colour conversion, chroma averaging, the DCT, the `fdtbl` scaling
and `Round`. `fe` gives the quantised coefficients, in zigzag order, of the
block that `JpegProcessDu` is called on. The placement loop itself is
modelled separately in `ZigZag.PlaceCoefficients`, with the sample type, the
scale type and the `Round(sample * scale)` step left abstract.

## Model

| member | source | states |
|---|---|---|
| Magnitude.Category | src/Simd/SimdSse41ImageSaveJpeg.cpp:104-105 | SSSS is 0 exactly for 0; otherwise it is the s with 2^(s-1) <= abs(v) < 2^s (Table F.1) |
| Magnitude.CategoryUnique | src/Simd/SimdSse41ImageSaveJpeg.cpp:104-105 | any value within the bounds of category s has category s |
| Magnitude.CategoryBoundaries | src/Simd/SimdSse41ImageSaveJpeg.cpp:104-105 | +-2^(n-1) opens category n, and +-(2^(n-1) - 1) closes category n - 1 |
| Magnitude.Bits | src/Simd/SimdSse41ImageSaveJpeg.cpp:104-106 | the magnitude field fits in SSSS bits, and its leading bit is 1 exactly for positive values |
| Magnitude.BitsAreLowBits | src/Simd/SimdSse41ImageSaveJpeg.cpp:104-106 | the field is the low SSSS bits of v (v >= 0) or of v - 1 (v < 0) |
| Magnitude.MagnitudeRoundTrip | src/Simd/SimdSse41ImageSaveJpeg.cpp:104-106 | EXTEND of (field, SSSS) gives back every non-zero value |
| Magnitude.ExtendRoundTrip | src/Simd/SimdSse41ImageSaveJpeg.cpp:130-132 | every s-bit field is the field of exactly one value of category s, so (SSSS, field) loses nothing |
| Magnitude.Field | src/Simd/SimdSse41ImageSaveJpeg.cpp:103-106 | the field as the uint16_t bits[0] holds it is below 2^16, and equals the whole Table F.1 field whenever SSSS <= 16 |
| Magnitude.FieldOfSmall | src/Simd/SimdSse41ImageSaveJpeg.cpp:103-106 | every value below 2^16 in magnitude has SSSS <= 16 and keeps its whole field |
| Magnitude.WideFieldTruncated | src/Simd/SimdSse41ImageSaveJpeg.cpp:103-106 | 2^16 has SSSS 17 and is stored as field 0, which EXTEND reads back as a different value, so the round trips need the 2^16 bound |
| ZigZag.StandardZigZagIsPermutation | src/Simd/SimdSse41ImageSaveJpeg.cpp:95 | the Figure A.6 table is a permutation of 0..63, and NaturalOf undoes it |
| ZigZag.ZigZagIsDiagonalScan | src/Simd/SimdSse41ImageSaveJpeg.cpp:95 | the table equals the geometric scan of alternating anti-diagonals |
| ZigZag.PermutationIsOnto | src/Simd/SimdSse41ImageSaveJpeg.cpp:89-97 | a one-to-one table reaches every index 0..63 (pigeonhole) |
| ZigZag.NaturalPosition | src/Simd/SimdSse41ImageSaveJpeg.cpp:95 | each zigzag index i has a natural position j < 64 with zz[j] == i |
| ZigZag.RowColumn | src/Simd/SimdSse41ImageSaveJpeg.cpp:89-93 | position j = 8y + x reads the sample at y * stride + x |
| ZigZag.PlaceCoefficients | src/Simd/SimdSse41ImageSaveJpeg.cpp:88-97 | DU[zz[j]] is the scaled, rounded sample of natural position j, scaled by fdtbl[j]; every entry of DU is written, from the position that maps to it |
| Entropy.LastNonZero | src/Simd/SimdSse41ImageSaveJpeg.cpp:108-109 | end0pos is the last non-zero position at or below 63, or 0 when every AC coefficient is zero |
| Entropy.SkipZeros | src/Simd/SimdSse41ImageSaveJpeg.cpp:120 | the zero scan stops at a non-zero coefficient no later than end0pos, having passed only zeros, so it never reads past index 63 |
| Entropy.Runs | src/Simd/SimdSse41ImageSaveJpeg.cpp:115-121 | the runs are each closed by a non-zero value, and there are none exactly when the scan starts past end0pos |
| Entropy.RunEvents | src/Simd/SimdSse41ImageSaveJpeg.cpp:121-132 | a run of r zeros before v is floor(r/16) ZRLs, then one symbol that is never EOB and, when SSSS(v) <= 15, is below 256, is not ZRL and packs run r mod 16 with size SSSS(v), then v's magnitude bits |
| Entropy.RunsEvents | src/Simd/SimdSse41ImageSaveJpeg.cpp:115-133 | the runs' events, at least two per run, ending in a magnitude field when there is a run |
| Entropy.EncodeAc | src/Simd/SimdSse41ImageSaveJpeg.cpp:108-135 | the AC events are a lone EOB exactly when all 63 AC coefficients are zero |
| Entropy.ProcessDu | src/Simd/SimdSse41ImageSaveJpeg.cpp:98-136 | the returned predictor is the quantised DC coefficient DU[0], not the difference, and the first event is HTDC[SSSS(DU[0] - DC)] |
| Entropy.DcEvents | src/Simd/SimdSse41ImageSaveJpeg.cpp:98-107 | one DC-table symbol SSSS(diff), alone exactly when the difference is 0, otherwise followed by an SSSS-bit field below 2^16 |
| Entropy.DcFields | src/Simd/SimdSse41ImageSaveJpeg.cpp:98-107 | a zero difference is HTDC[0] alone, with the AC symbols right after it; a non-zero one is HTDC[SSSS] followed by its magnitude bits |
| Entropy.EncodeAcStartsWithSymbol | src/Simd/SimdSse41ImageSaveJpeg.cpp:112-131 | the first AC event is a symbol of the AC table |
| Entropy.EobIffLastIsZero | src/Simd/SimdSse41ImageSaveJpeg.cpp:108-135 | exactly one EOB is written if DU[63] is 0, and none otherwise; the AC events end in EOB exactly when DU[63] is 0 |
| Entropy.RunSymbolsCountNonZeros | src/Simd/SimdSse41ImageSaveJpeg.cpp:115-133 | for AC coefficients below 2^15 in magnitude, the number of run/size symbols (neither ZRL nor EOB) equals the number of non-zero AC coefficients |
| Entropy.RunsCountNonZeros | src/Simd/SimdSse41ImageSaveJpeg.cpp:115-121 | there is one run per non-zero coefficient up to end0pos |
| Entropy.RunsExpand | src/Simd/SimdSse41ImageSaveJpeg.cpp:115-121 | expanding the runs gives back exactly DU[i..end0pos] |
| Entropy.SmallCategory | src/Simd/SimdSse41ImageSaveJpeg.cpp:130-131 | a coefficient below 2^15 in magnitude has SSSS <= 15, so SSSS fits the low four bits of the symbol (nrzeroes << 4) + SSSS and the index stays below 256 |
| Entropy.RunEventsOneCodingSymbol | src/Simd/SimdSse41ImageSaveJpeg.cpp:122-132 | when SSSS(v) <= 15, i.e. v below 2^15 in magnitude, each run writes exactly one run/size symbol |
| Entropy.RunEventsNoEob | src/Simd/SimdSse41ImageSaveJpeg.cpp:122-132 | a run never writes EOB |
| Decode.DcRoundTrip | src/Simd/SimdSse41ImageSaveJpeg.cpp:98-107 | for a difference below 2^16 in magnitude, decoding the DC events gives back the difference and stops right after them |
| Decode.DecodeRunSymbol | src/Simd/SimdSse41ImageSaveJpeg.cpp:130-132 | for a value below 2^15 in magnitude (SSSS <= 15), a run/size symbol followed by its magnitude bits decodes as r zeros then the value |
| Decode.RunRoundTrip | src/Simd/SimdSse41ImageSaveJpeg.cpp:121-132 | for a value below 2^15 in magnitude, decoding one run's events (ZRLs included) gives back its zeros and value |
| Decode.RunsRoundTrip | src/Simd/SimdSse41ImageSaveJpeg.cpp:115-133 | for runs whose values are below 2^15 in magnitude, decoding the events of all runs gives back the expanded coefficients |
| Decode.AcRoundTrip | src/Simd/SimdSse41ImageSaveJpeg.cpp:108-135 | for AC coefficients below 2^15 in magnitude, decoding the AC events gives back DU[1..63], EOB standing for the trailing zeros |
| Decode.ProcessDuRoundTrip | src/Simd/SimdSse41ImageSaveJpeg.cpp:98-136 | when the DC difference is below 2^16 and the AC coefficients below 2^15 in magnitude, decoding a block's events with the same predictor, wherever they sit in a stream, gives back the block and stops right after them |
| Decode.ProcessDuInjective | src/Simd/SimdSse41ImageSaveJpeg.cpp:98-136 | two blocks in that range with the same events under the same predictor are equal |
| Sampling.ClampRow | src/Simd/SimdSse41ImageSaveJpeg.cpp:210 | the row read is a valid row of the image |
| Sampling.ClampCol | src/Simd/SimdSse41ImageSaveJpeg.cpp:213 | the column read is a valid column of the image |
| Sampling.ClampIsNearest | src/Simd/SimdSse41ImageSaveJpeg.cpp:210-213 | clamping keeps rows that exist, and maps a missing row to the nearest valid row |
| Sampling.FastSourceRowAsWritten | src/Simd/SimdSse41ImageSaveJpeg.cpp:196 | as written, buffer row r of the fast path reads image row r while r < height - y, and from then on row height - y |
| Sampling.RgbToYuvRows | src/Simd/SimdSse41ImageSaveJpeg.cpp:151-164 | the pointer walk, called with height - y, reads for every buffer row exactly the row FastSourceRowAsWritten gives |
| Sampling.FastPathReadsPastLastRow | src/Simd/SimdSse41ImageSaveJpeg.cpp:162-163 | for a 4-row image, buffer row 4 reads row 4, one past the last row, where clamping reads row 3 |
| Sampling.FastPathIgnoresMcuRow | src/Simd/SimdSse41ImageSaveJpeg.cpp:196 | with y = 16, buffer row 0 reads image row 0, where the edge path reads row 16 |
| Sampling.FastPathAsWrittenOnFirstRow | src/Simd/SimdSse41ImageSaveJpeg.cpp:162-163 | on the first MCU row, the as-written walk agrees with clamping on existing rows and is one row too far below the image |
| Sampling.FastPathRows | src/Simd/SimdSse41ImageSaveJpeg.cpp:151-164 | the walk with its pointer stopped on the last row and started at row y reads row ClampRow(y + r) for buffer row r |
| Sampling.EdgeGather | src/Simd/SimdSse41ImageSaveJpeg.cpp:208-219 | buffer position pos holds the pixel at the clamped row y + pos / S and column x + pos % S |
| Sampling.LumaBlockPlacement | src/Simd/SimdSse41ImageSaveJpeg.cpp:197-200 | sample (r, c) of luma block b is row 8(b/2) + r, column 8(b%2) + c of the MCU |
| Sampling.LumaOffset | src/Simd/SimdSse41ImageSaveJpeg.cpp:197-200 | the four luma offsets 0, 8, 128, 136 are the quadrant origins 128 * (b / 2) + 8 * (b % 2) |
| Sampling.LumaSource | src/Simd/SimdSse41ImageSaveJpeg.cpp:197-200 | every position of the 16 x 16 buffer belongs to some luma block, row and column |
| Sampling.LumaBlocksDisjoint | src/Simd/SimdSse41ImageSaveJpeg.cpp:197-200 | no two (block, row, column) triples read the same position |
| Sampling.SubUvTaps | src/Simd/SimdSse41ImageSaveJpeg.cpp:168-182 | each averaged chroma sample reads four positions inside the 16 x 16 buffer |
| Sampling.SubUvOwner | src/Simd/SimdSse41ImageSaveJpeg.cpp:168-182 | every chroma buffer position is read by some averaged sample |
| Sampling.SubUvTapsOwned | src/Simd/SimdSse41ImageSaveJpeg.cpp:168-182 | that sample is the only one: the 64 2 x 2 squares partition the buffer |
| Raster.FitsIff | src/Simd/SimdSse41ImageSaveJpeg.cpp:188-194 | all S columns of the MCU at x = S * i exist exactly when i < width / S (rows are not looked at) |
| Raster.FastIffWhole | src/Simd/SimdSse41ImageSaveJpeg.cpp:188-194 | the fast-path test x < width - width % S holds exactly when all S columns of the MCU exist; on the last MCU row a fast MCU may still reach below the image |
| Raster.BelowIff | src/Simd/SimdSse41ImageSaveJpeg.cpp:189 | the loop at step i runs exactly when i < ceil(n / S) |
| Raster.McuWalk | src/Simd/SimdSse41ImageSaveJpeg.cpp:188-229 | the drivers' loops visit exactly the raster grid of ceil(height/S) x ceil(width/S) MCUs, row by row |
| Raster.McuRow | src/Simd/SimdSse41ImageSaveJpeg.cpp:191-228 | one MCU row appends exactly ceil(width/S) MCUs, each taking the fast path exactly when all its S columns exist |
| Raster.BufferPixel | src/Simd/SimdSse41ImageSaveJpeg.cpp:208-213 | every pixel the edge path, or the corrected fast path, puts in an MCU buffer lies inside the image; the as-written fast path does not (see Findings) |
| Raster.FastMcuColumnsInside | src/Simd/SimdSse41ImageSaveJpeg.cpp:194-196 | a fast MCU needs no column clamping |
| Raster.GridCoversImage | src/Simd/SimdSse41ImageSaveJpeg.cpp:189-213 | under the clamped reading `BufferPixel` (the edge path, or the corrected fast path), every pixel of the image appears, unclamped, in the buffer of some MCU of the grid; the as-written fast path does not (see Findings) |
| Driver.Set | src/Simd/SimdSse41ImageSaveJpeg.cpp:187 | assigning one component's predictor leaves the other two unchanged |
| Driver.DcTable | src/Simd/SimdSse41ImageSaveJpeg.cpp:197-204 | luma blocks use the luminance DC table, U and V share the chrominance one |
| Driver.AcTable | src/Simd/SimdSse41ImageSaveJpeg.cpp:197-204 | luma blocks use the luminance AC table, U and V share the chrominance one |
| Driver.McuBlocks | src/Simd/SimdSse41ImageSaveJpeg.cpp:197-204 | an MCU codes six blocks in 4:2:0 and three in 4:4:4, all at the MCU's origin, and every sample they read (`BlockSample`: offset plus row times stride plus column) lies inside its component's buffer (`BufferSize`: S x S for luma with S = `McuSize`, 16 or 8, and 64 for chroma) |
| Driver.McuBlockOrder | src/Simd/SimdSse41ImageSaveJpeg.cpp:197-204 | an MCU's blocks share its origin, start with Y, end with V, and never interleave components |
| Driver.McuBlocksCoverBuffers | src/Simd/SimdSse41ImageSaveJpeg.cpp:197-204 | every position of a component's buffer is read by some block of that component |
| Driver.McuBlocksDisjoint | src/Simd/SimdSse41ImageSaveJpeg.cpp:197-200 | no position is read by two samples of a component's blocks |
| Driver.SubsampledMcu | src/Simd/SimdSse41ImageSaveJpeg.cpp:197-204 | a 4:2:0 MCU codes four luma blocks threaded through DCY, then U against DCU and V against DCV; afterwards dc[] holds their last DCs |
| Driver.FullMcu | src/Simd/SimdSse41ImageSaveJpeg.cpp:244-246 | a 4:4:4 MCU codes one block each of Y, U and V, each against its own predictor |
| Driver.EncodeBlocks | src/Simd/SimdSse41ImageSaveJpeg.cpp:197-204 | after a run of blocks, the last block's component holds that block's DC as its predictor |
| Driver.EncodeBlocksAppend | src/Simd/SimdSse41ImageSaveJpeg.cpp:189-229 | coding a + b is coding a, then coding b from the predictors a leaves, so MCU-by-MCU coding equals coding the whole block list |
| Driver.EncodeBlocksPredictors | src/Simd/SimdSse41ImageSaveJpeg.cpp:187-204 | after the blocks, each component's predictor is the DC of its last block, or its initial value if it had none |
| Driver.EncodeBlocksIsReference | src/Simd/SimdSse41ImageSaveJpeg.cpp:187-229 | the threading codes every block against the DC of the previous block of the same component |
| Driver.ImageRefs | src/Simd/SimdSse41ImageSaveJpeg.cpp:189-229 | the image's blocks are the MCUs' blocks, B per MCU |
| Driver.BlocksRoundTrip | src/Simd/SimdSse41ImageSaveJpeg.cpp:197-204 | when every coefficient and initial predictor is below 2^15 in magnitude, decoding a block run's events with the same initial predictors gives back every block and stops right after them |
| Driver.ImageRefsAt | src/Simd/SimdSse41ImageSaveJpeg.cpp:189-229 | block b of MCU k is block k * B + b of the image |
| Driver.WriteBlocks | src/Simd/SimdSse41ImageSaveJpeg.cpp:184-230 | the drivers' output is the threaded coding of the blocks of the raster grid of `McuSize` MCUs |
| Driver.ImageRoundTrip | src/Simd/SimdSse41ImageSaveJpeg.cpp:184-268 | under the same range, decoding a whole image's events, knowing only the MCU layout and the initial predictors, gives back every block in order and consumes exactly the events written |

## Left out

- JpegDct, RgbToYuv's colour arithmetic, SubUv's averaging, the inline colour formulas and Round are floating point. They become the parameter `fe` (and `scaleRound` in `ZigZag.PlaceCoefficients`). Only the rows, columns and buffer positions they read are modelled.
- JpegCalcBits, JpegZigZag, the Huffman tables and `OutputMemoryStream::WriteJpegBits` are defined in files outside this model. Category and magnitude bits follow Table F.1 of T.81. The zigzag table is a parameter, with the Figure A.6 table given as a constant. The tables are opaque identifiers in the trace. The round trips are stated over symbols, not bits: they take every emitted symbol to have a Huffman code. The AC tables are not part of this model, and typical baseline AC tables give codes only up to SSSS 10.
- The code lengths of the Huffman tables, the bit packing, byte stuffing and final padding (section F.1.2.3 of T.81) happen in the stream writer, which is not part of this model.
- Magnitude.Field: JpegCalcBits is not part of this model. The field is taken as the Table F.1 field cut to the 16 bits of `bits[0]`. What the source writes for a category above 16 is not modelled beyond that.
- Decode.ProcessDuRoundTrip, Driver.BlocksRoundTrip, Driver.ImageRoundTrip: the round trips are stated only for DC differences below 2^16 and AC coefficients below 2^15 in magnitude (`AcInRange`, `AllInRange`, `PredictorsInRange`). From 2^16 on, the stored field loses bits (`Magnitude.WideFieldTruncated`). From 2^15 on, an AC SSSS no longer fits the four bits of its symbol: for example 2^15 after 14 zeros gives the symbol 14 * 16 + 16 = 0xF0, which is ZRL.
- Decode.AcRoundTrip, Decode.RunRoundTrip, Decode.RunsRoundTrip, Decode.DecodeRunSymbol, Entropy.RunSymbolsCountNonZeros, Entropy.RunEventsOneCodingSymbol: stated only for AC coefficients below 2^15 in magnitude (`AcInRange`, `SmallRuns`, `Category(v) <= 15`), for the same reason.
- The C `int` width of `diff = DU[0] - DC` (line 98) and of the predictors `dc[]` is not modelled: Dafny's `int` is unbounded. Quantised coefficients of 8-bit samples are far below the 32-bit range, but the front end is abstract here, so that is not proved.
- Raster.GridCoversImage: coverage is proved for the clamped reading `BufferPixel` only. The fast path as written (line 196, and lines 162-163 for padding rows) reads other rows, and for y >= S rows y..y+S-1 of fast MCUs never enter a buffer; see Findings.
- Raster.FastIffWhole: `width & ~15` and `width & ~7` are written as `width - width % S`, which is the same for non-negative widths; the bitwise form is not modelled.
- The quantisation table `fdtbl` is indexed by natural position j, as the code does. A reading where the table is indexed by zigzag position is not modelled.
- The `ImageJpegSaver` constructor (function-pointer dispatch by pixel format) and the callers of the drivers are not part of this model. The initial predictors are a parameter.
- Driver.WriteBlocks: the front end `fe` is an unconstrained parameter. The driver model therefore says nothing about which pixels feed a block. That is stated separately: `Sampling.EdgeGather` and `Raster.BufferPixel` give the clamped pixels, `Sampling.FastPathRows` the corrected fast path, and `Sampling.RgbToYuvRows` the as-written one.

## Findings

| source | as written | input that shows it | evidently intended | confidence | as-written member | corrected member |
|---|---|---|---|---|---|---|
| src/Simd/SimdSse41ImageSaveJpeg.cpp:162-163 | RgbToYuv moves to the next source row after every buffer row while `row < height`. The drivers pass `height - y` (lines 196 and 243), so buffer row r reads row min(r, height - y). On a partial last MCU row, the padding rows read the row just past the image. | y = 0, height = 4, buffer row 4: row 4 is read, but the image has rows 0..3 | pad with the last valid row, as the edge path does at line 210, i.e. stop the pointer at row height - y - 1 | medium, not executed; the drivers' callers are outside this model | Sampling.FastPathReadsPastLastRow | Sampling.FastPathRows |
| src/Simd/SimdSse41ImageSaveJpeg.cpp:196 | the fast path passes `red + x` to RgbToYuv, with no `y * stride` offset, while the edge path reads absolute rows y..y+S-1 (line 210). | height = 32, y = 16, buffer row 0: the fast path reads row 0, the edge path row 16 | start at row y (`red + y * stride + x`) | low, not executed; consistent if every call covers a single MCU row | Sampling.FastPathIgnoresMcuRow | Sampling.FastPathRows |

=== FILE: decode.dfy ===
/**
 * A baseline sequential decoder for the event trace of one block
 * (section F.2.2 of ITU-T T.81): the partner against which the encoder's
 * output is checked.  It reads the DC category and its magnitude bits, then
 * fills the 63 AC positions from run/size symbols, ZRL and EOB.  The
 * decoder reads a stream `t` from position p and reports where it stopped,
 * so a block can be decoded wherever it sits in the stream of an image.
 */
module Decode {
  import opened Magnitude
  import opened Entropy

  datatype Option<T> = None | Some(value: T)

  /** A decoded value and the stream position just after it. */
  datatype Decoded<T> = Decoded(value: T, next: nat)

  /** Puts `xs` in front of a decoded coefficient list; failure stays failure. */
  function Prepend(xs: seq<int>, o: Option<Decoded<seq<int>>>): Option<Decoded<seq<int>>>
  {
    match o
    case None => None
    case Some(d) => Some(Decoded(xs + d.value, d.next))
  }

  /** The DC difference: category s, then s magnitude bits unless s is 0. */
  function DecodeDc(t: seq<Event>, p: nat, htdc: Table): (o: Option<Decoded<int>>)
    requires p <= |t|
    ensures o.Some? ==> p < o.value.next <= |t|
  {
    if p == |t| || !t[p].Huff? || t[p].table != htdc then None
    else
      var s := t[p].symbol;
      if s == 0 then Some(Decoded(0, p + 1))
      else if p + 1 == |t| || !t[p + 1].Extra? || t[p + 1].size != s || t[p + 1].bits >= Pow2(s) then None
      else Some(Decoded(Extend(t[p + 1].bits, s), p + 2))
  }

  /**
   * The AC coefficients from zigzag position k on.  EOB zero-fills the rest
   * of the block, ZRL stands for sixteen zeros, and symbol RRRRSSSS for
   * RRRR zeros followed by the value whose SSSS magnitude bits come next.
   * Position 64 ends the block without an EOB.
   */
  function DecodeAc(t: seq<Event>, p: nat, k: nat, htac: Table): (o: Option<Decoded<seq<int>>>)
    requires p <= |t| && 1 <= k <= 64
    ensures o.Some? ==> |o.value.value| == 64 - k && p <= o.value.next <= |t|
    decreases |t| - p
  {
    if k == 64 then Some(Decoded([], p))
    else if p == |t| || !t[p].Huff? || t[p].table != htac then None
    else
      var rs := t[p].symbol;
      if rs == EOB then Some(Decoded(Zeros(64 - k), p + 1))
      else if rs == ZRL then
        if k + 16 <= 64 then Prepend(Zeros(16), DecodeAc(t, p + 1, k + 16, htac)) else None
      else
        var r := rs / 16;
        var s := rs % 16;
        if rs >= 256 || s == 0 || k + r >= 64 then None
        else if p + 1 == |t| || !t[p + 1].Extra? || t[p + 1].size != s || t[p + 1].bits >= Pow2(s) then None
        else Prepend(Zeros(r) + [Extend(t[p + 1].bits, s)], DecodeAc(t, p + 2, k + r + 1, htac))
  }

  /** One block: the predictor plus the DC difference, then the 63 AC coefficients. */
  function DecodeBlock(t: seq<Event>, p: nat, pred: int, htdc: Table, htac: Table): (o: Option<Decoded<Block>>)
    requires p <= |t|
    ensures o.Some? ==> p < o.value.next <= |t|
  {
    match DecodeDc(t, p, htdc)
    case None => None
    case Some(dc) =>
      match DecodeAc(t, dc.next, 1, htac)
      case None => None
      case Some(ac) => Some(Decoded([pred + dc.value] + ac.value, ac.next))
  }

  // ---------------------------------------------------------------------
  // Round trip

  /** The events `ev` sit in the stream t from position p on. */
  predicate Occurs(t: seq<Event>, p: nat, ev: seq<Event>)
  {
    p + |ev| <= |t| && t[p..p + |ev|] == ev
  }

  lemma OccursSplit(t: seq<Event>, p: nat, a: seq<Event>, b: seq<Event>)
    requires Occurs(t, p, a + b)
    ensures Occurs(t, p, a) && Occurs(t, p + |a|, b)
  {
    assert t[p..p + |a|] == t[p..p + |a + b|][..|a|];
    assert t[p + |a|..p + |a| + |b|] == t[p..p + |a + b|][|a|..];
  }

  lemma OccursAt(t: seq<Event>, p: nat, ev: seq<Event>, i: nat)
    requires Occurs(t, p, ev) && i < |ev|
    ensures p + i < |t| && t[p + i] == ev[i]
  {
    assert t[p + i] == t[p..p + |ev|][i];
  }

  /** Unfolding step: runs of zeros add up. */
  lemma ZerosAdd(a: nat, b: nat)
    ensures Zeros(a) + Zeros(b) == Zeros(a + b)
  {
  }

  lemma DecodeEob(t: seq<Event>, p: nat, k: nat, htac: Table)
    requires 1 <= k < 64
    requires p < |t| && t[p] == Huff(htac, EOB)
    ensures DecodeAc(t, p, k, htac) == Some(Decoded(Zeros(64 - k), p + 1))
  {
  }

  lemma DecodeZrl(t: seq<Event>, p: nat, k: nat, htac: Table, rest: seq<int>, r: nat)
    requires 1 <= k && k + 16 <= 64
    requires p < |t| && t[p] == Huff(htac, ZRL)
    requires DecodeAc(t, p + 1, k + 16, htac) == Some(Decoded(rest, r))
    ensures DecodeAc(t, p, k, htac) == Some(Decoded(Zeros(16) + rest, r))
  {
  }

  lemma RunSymbolFields(n: nat, c: nat)
    requires n < 16 && 1 <= c <= 15
    ensures (n * 16 + c) / 16 == n && (n * 16 + c) % 16 == c
    ensures n * 16 + c < 256 && n * 16 + c != EOB && n * 16 + c != ZRL
  {
  }

  lemma DecodeRunSymbol(t: seq<Event>, p: nat, k: nat, htac: Table, n: nat, v: int, end: nat, rest: seq<int>, r: nat)
    requires v != 0 && Category(v) <= 15 && n < 16
    requires 1 <= k && end == k + n + 1 <= 64
    requires p + 1 < |t|
    requires t[p] == Huff(htac, n * 16 + Category(v)) && t[p + 1] == Extra(Field(v), Category(v))
    requires DecodeAc(t, p + 2, end, htac) == Some(Decoded(rest, r))
    ensures DecodeAc(t, p, k, htac) == Some(Decoded(Zeros(n) + [v] + rest, r))
  {
    RunSymbolFields(n, Category(v));
    MagnitudeRoundTrip(v);
  }

  /**
   * The DC events decode to the difference they were written for, when
   * its field fits bits[0] whole (see Magnitude.WideFieldTruncated).
   */
  lemma DcRoundTrip(diff: int, htdc: Table, t: seq<Event>, p: nat)
    requires Abs(diff) < 0x10000
    requires Occurs(t, p, DcEvents(diff, htdc))
    ensures DecodeDc(t, p, htdc) == Some(Decoded(diff, p + |DcEvents(diff, htdc)|))
  {
    var ev := DcEvents(diff, htdc);
    OccursAt(t, p, ev, 0);
    if diff != 0 {
      OccursAt(t, p, ev, 1);
      FieldOfSmall(diff);
      MagnitudeRoundTrip(diff);
    }
  }

  /** Sixteen zeros or more begin with a ZRL; the rest of the run is one ZRL shorter. */
  lemma RunEventsPeel(n: nat, v: int, htac: Table)
    requires v != 0 && n >= 16
    ensures RunEvents(n, v, htac) == [Huff(htac, ZRL)] + RunEvents(n - 16, v, htac)
  {
    var a := RunEvents(n, v, htac);
    var b := [Huff(htac, ZRL)] + RunEvents(n - 16, v, htac);
    assert n % 16 == (n - 16) % 16 && n / 16 == (n - 16) / 16 + 1;
    assert |a| == |b|;
    forall k | 0 <= k < |a|
      ensures a[k] == b[k]
    {
      if k < n / 16 {
        assert a[k] == Huff(htac, ZRL);
      } else if k > 0 {
        assert b[k] == RunEvents(n - 16, v, htac)[k - 1];
      }
    }
  }

  /**
   * One run decodes to its zeros and its value: if the decoder, started
   * just after the run, yields `rest`, then started at the run it yields
   * the run's coefficients followed by `rest`.
   */
  lemma {:induction false} RunRoundTrip(n: nat, v: int, htac: Table, t: seq<Event>, p: nat, q: nat, k: nat, end: nat,
                                        rest: seq<int>, r: nat)
    requires v != 0 && Category(v) <= 15
    requires Occurs(t, p, RunEvents(n, v, htac)) && q == p + |RunEvents(n, v, htac)|
    requires 1 <= k && end == k + n + 1 <= 64
    requires DecodeAc(t, q, end, htac) == Some(Decoded(rest, r))
    ensures DecodeAc(t, p, k, htac) == Some(Decoded(Zeros(n) + [v] + rest, r))
    decreases n, 1
  {
    if n < 16 {
      var ev := RunEvents(n, v, htac);
      OccursAt(t, p, ev, 0);
      OccursAt(t, p, ev, 1);
      DecodeRunSymbol(t, p, k, htac, n, v, end, rest, r);
    } else {
      LongRunRoundTrip(n, v, htac, t, p, q, k, end, rest, r);
    }
  }

  /** A run of sixteen zeros or more: one ZRL, then a run sixteen zeros shorter. */
  lemma {:induction false} LongRunRoundTrip(n: nat, v: int, htac: Table, t: seq<Event>, p: nat, q: nat, k: nat, end: nat,
                                            rest: seq<int>, r: nat)
    requires v != 0 && Category(v) <= 15 && n >= 16
    requires Occurs(t, p, RunEvents(n, v, htac)) && q == p + |RunEvents(n, v, htac)|
    requires 1 <= k && end == k + n + 1 <= 64
    requires DecodeAc(t, q, end, htac) == Some(Decoded(rest, r))
    ensures DecodeAc(t, p, k, htac) == Some(Decoded(Zeros(n) + [v] + rest, r))
    decreases n, 0
  {
    hide *;
    OccursPeel(n, v, htac, t, p);
    RunRoundTrip(n - 16, v, htac, t, p + 1, q, k + 16, end, rest, r);
    DecodeZrl(t, p, k, htac, Zeros(n - 16) + [v] + rest, r);
    ZrlPrefix(n, v, rest);
  }

  lemma OccursPeel(n: nat, v: int, htac: Table, t: seq<Event>, p: nat)
    requires v != 0 && n >= 16
    requires Occurs(t, p, RunEvents(n, v, htac))
    ensures p < |t| && t[p] == Huff(htac, ZRL)
    ensures Occurs(t, p + 1, RunEvents(n - 16, v, htac))
    ensures |RunEvents(n, v, htac)| == 1 + |RunEvents(n - 16, v, htac)|
  {
    RunEventsPeel(n, v, htac);
    OccursSplit(t, p, [Huff(htac, ZRL)], RunEvents(n - 16, v, htac));
    OccursAt(t, p, [Huff(htac, ZRL)], 0);
  }

  /** Sixteen zeros in front of a run sixteen zeros shorter. */
  lemma ZrlPrefix(n: nat, v: int, rest: seq<int>)
    requires n >= 16
    ensures Zeros(16) + (Zeros(n - 16) + [v] + rest) == Zeros(n) + [v] + rest
  {
    ZerosAdd(16, n - 16);
    AppendAssoc(Zeros(16), Zeros(n - 16), [v]);
    AppendAssoc(Zeros(16), Zeros(n - 16) + [v], rest);
  }

  /**
   * A list of runs decodes to the coefficients it stands for, followed by
   * whatever the decoder yields after the runs.
   */
  lemma {:induction false} RunsRoundTrip(rs: seq<Run>, htac: Table, t: seq<Event>, p: nat, q: nat, k: nat, end: nat,
                                         rest: seq<int>, r: nat)
    requires ValidRuns(rs) && SmallRuns(rs)
    requires Occurs(t, p, RunsEvents(rs, htac)) && q == p + |RunsEvents(rs, htac)|
    requires 1 <= k && end == k + |Expand(rs)| <= 64
    requires DecodeAc(t, q, end, htac) == Some(Decoded(rest, r))
    ensures DecodeAc(t, p, k, htac) == Some(Decoded(Expand(rs) + rest, r))
    decreases |rs|, 1
  {
    if |rs| == 0 {
      assert Expand(rs) + rest == rest;
    } else {
      ConsRunsRoundTrip(rs, htac, t, p, q, k, end, rest, r);
    }
  }

  /** The first run, then the others. */
  lemma {:induction false} ConsRunsRoundTrip(rs: seq<Run>, htac: Table, t: seq<Event>, p: nat, q: nat, k: nat, end: nat,
                                             rest: seq<int>, r: nat)
    requires ValidRuns(rs) && SmallRuns(rs) && |rs| > 0
    requires Occurs(t, p, RunsEvents(rs, htac)) && q == p + |RunsEvents(rs, htac)|
    requires 1 <= k && end == k + |Expand(rs)| <= 64
    requires DecodeAc(t, q, end, htac) == Some(Decoded(rest, r))
    ensures DecodeAc(t, p, k, htac) == Some(Decoded(Expand(rs) + rest, r))
    decreases |rs|, 0
  {
    hide *;
    RunsPeel(rs, htac, t, p);
    var m := p + |RunEvents(rs[0].zeros, rs[0].value, htac)|;
    ExpandPeel(rs, rest);
    RunsRoundTrip(rs[1..], htac, t, m, q, k + rs[0].zeros + 1, end, rest, r);
    RunRoundTrip(rs[0].zeros, rs[0].value, htac, t, p, m, k, k + rs[0].zeros + 1, Expand(rs[1..]) + rest, r);
  }

  /** The events of the first run, then those of the others. */
  lemma RunsPeel(rs: seq<Run>, htac: Table, t: seq<Event>, p: nat)
    requires ValidRuns(rs) && SmallRuns(rs) && |rs| > 0
    requires Occurs(t, p, RunsEvents(rs, htac))
    ensures ValidRuns(rs[1..]) && SmallRuns(rs[1..])
    ensures rs[0].value != 0 && Category(rs[0].value) <= 15
    ensures Occurs(t, p, RunEvents(rs[0].zeros, rs[0].value, htac))
    ensures Occurs(t, p + |RunEvents(rs[0].zeros, rs[0].value, htac)|, RunsEvents(rs[1..], htac))
    ensures |RunsEvents(rs, htac)| == |RunEvents(rs[0].zeros, rs[0].value, htac)| + |RunsEvents(rs[1..], htac)|
  {
    hide *;
    RunsTail(rs);
    RunsEventsCons(rs, htac);
    OccursSplit(t, p, RunEvents(rs[0].zeros, rs[0].value, htac), RunsEvents(rs[1..], htac));
  }

  lemma RunsTail(rs: seq<Run>)
    requires ValidRuns(rs) && SmallRuns(rs) && |rs| > 0
    ensures ValidRuns(rs[1..]) && SmallRuns(rs[1..])
    ensures rs[0].value != 0 && Category(rs[0].value) <= 15
  {
    assert forall k :: 0 <= k < |rs| - 1 ==> rs[1..][k] == rs[k + 1];
  }

  lemma RunsEventsCons(rs: seq<Run>, htac: Table)
    requires ValidRuns(rs) && |rs| > 0
    ensures ValidRuns(rs[1..])
    ensures RunsEvents(rs, htac) == RunEvents(rs[0].zeros, rs[0].value, htac) + RunsEvents(rs[1..], htac)
  {
    assert forall k :: 0 <= k < |rs| - 1 ==> rs[1..][k] == rs[k + 1];
  }

  /** The coefficients of the first run, then those of the others. */
  lemma ExpandPeel(rs: seq<Run>, rest: seq<int>)
    requires |rs| > 0
    ensures Expand(rs) + rest == Zeros(rs[0].zeros) + [rs[0].value] + (Expand(rs[1..]) + rest)
    ensures |Expand(rs)| == rs[0].zeros + 1 + |Expand(rs[1..])|
  {
    AppendAssoc(Zeros(rs[0].zeros) + [rs[0].value], Expand(rs[1..]), rest);
  }

  /** Unfolding step: concatenation regroups (a fact hidden bodies do not expose). */
  lemma AppendAssoc(a: seq<int>, b: seq<int>, c: seq<int>)
    ensures a + b + c == a + (b + c)
  {
  }

  /** The AC events of a block decode to its 63 AC coefficients. */
  lemma AcRoundTrip(du: Block, htac: Table, t: seq<Event>, p: nat, q: nat)
    requires AcInRange(du)
    requires Occurs(t, p, EncodeAc(du, htac)) && q == p + |EncodeAc(du, htac)|
    ensures DecodeAc(t, p, 1, htac) == Some(Decoded(du[1..], q))
  {
    hide *;
    var end0pos := LastNonZero(du, 63);
    if end0pos == 0 {
      EncodeAcAllZero(du, htac);
      OccursAt(t, p, [Huff(htac, EOB)], 0);
      DecodeEob(t, p, 1, htac);
    } else {
      var rs := Runs(du, 1, end0pos);
      var runs := RunsEvents(rs, htac);
      var eob := if end0pos != 63 then [Huff(htac, EOB)] else [];
      var m := p + |runs|;
      EncodeAcOfRuns(du, htac, end0pos);
      OccursSplit(t, p, runs, eob);
      EobRoundTrip(t, m, end0pos, htac);
      RunsExpand(du, 1, end0pos);
      RunsSmall(du, 1, end0pos);
      RunsRoundTrip(rs, htac, t, p, m, 1, end0pos + 1, Zeros(63 - end0pos), m + |eob|);
      TrailingZeros(du, end0pos);
    }
  }

  /** After the runs, an EOB fills the block with zeros, or the block is already full. */
  lemma EobRoundTrip(t: seq<Event>, m: nat, end0pos: nat, htac: Table)
    requires 1 <= end0pos <= 63
    requires Occurs(t, m, if end0pos != 63 then [Huff(htac, EOB)] else [])
    ensures DecodeAc(t, m, end0pos + 1, htac)
      == Some(Decoded(Zeros(63 - end0pos), m + |if end0pos != 63 then [Huff(htac, EOB)] else []|))
  {
    if end0pos != 63 {
      OccursAt(t, m, [Huff(htac, EOB)], 0);
      DecodeEob(t, m, end0pos + 1, htac);
    } else {
      assert Zeros(0) == [];
    }
  }

  /** After the last non-zero coefficient come only zeros. */
  lemma TrailingZeros(du: Block, end0pos: nat)
    requires 1 <= end0pos && end0pos == LastNonZero(du, 63)
    ensures du[1..] == du[1..end0pos + 1] + Zeros(63 - end0pos)
  {
  }

  /**
   * Decoding what JpegProcessDu writes for a block gives the block back,
   * given the same DC predictor, and stops right after the block's events.
   * The DC difference must fit the 16-bit field and the AC coefficients
   * the 4-bit SSSS.
   */
  lemma ProcessDuRoundTrip(du: Block, pred: int, htdc: Table, htac: Table, t: seq<Event>, p: nat)
    requires Abs(du[0] - pred) < 0x10000 && AcInRange(du)
    requires Occurs(t, p, ProcessDu(du, pred, htdc, htac).events)
    ensures DecodeBlock(t, p, pred, htdc, htac)
      == Some(Decoded(du, p + |ProcessDu(du, pred, htdc, htac).events|))
  {
    hide *;
    PartsRoundTrip(du, pred, htdc, htac, t, p);
    DecodeBlockOf(t, p, pred, htdc, htac, du[0] - pred, p + |DcEvents(du[0] - pred, htdc)|,
                  du[1..], p + |ProcessDu(du, pred, htdc, htac).events|);
    BlockFromParts(du, pred);
  }

  /** The DC part and the AC part of a block decode separately. */
  lemma PartsRoundTrip(du: Block, pred: int, htdc: Table, htac: Table, t: seq<Event>, p: nat)
    requires Abs(du[0] - pred) < 0x10000 && AcInRange(du)
    requires Occurs(t, p, ProcessDu(du, pred, htdc, htac).events)
    ensures p + |DcEvents(du[0] - pred, htdc)| <= |t|
    ensures DecodeDc(t, p, htdc) == Some(Decoded(du[0] - pred, p + |DcEvents(du[0] - pred, htdc)|))
    ensures DecodeAc(t, p + |DcEvents(du[0] - pred, htdc)|, 1, htac)
      == Some(Decoded(du[1..], p + |ProcessDu(du, pred, htdc, htac).events|))
  {
    hide *;
    BlockOccurs(du, pred, htdc, htac, t, p);
    DcRoundTrip(du[0] - pred, htdc, t, p);
    AcRoundTrip(du, htac, t, p + |DcEvents(du[0] - pred, htdc)|, p + |ProcessDu(du, pred, htdc, htac).events|);
  }

  /** The DC events of a block, then its AC events. */
  lemma BlockOccurs(du: Block, pred: int, htdc: Table, htac: Table, t: seq<Event>, p: nat)
    requires Occurs(t, p, ProcessDu(du, pred, htdc, htac).events)
    ensures Occurs(t, p, DcEvents(du[0] - pred, htdc))
    ensures Occurs(t, p + |DcEvents(du[0] - pred, htdc)|, EncodeAc(du, htac))
    ensures |ProcessDu(du, pred, htdc, htac).events| == |DcEvents(du[0] - pred, htdc)| + |EncodeAc(du, htac)|
  {
    hide DcEvents, EncodeAc, Field, Bits, Category;
    OccursSplit(t, p, DcEvents(du[0] - pred, htdc), EncodeAc(du, htac));
  }

  /** Unfolding step of DecodeBlock: a decoded DC difference and decoded AC coefficients make a block. */
  lemma DecodeBlockOf(t: seq<Event>, p: nat, pred: int, htdc: Table, htac: Table,
                      diff: int, m: nat, ac: seq<int>, q: nat)
    requires p <= m <= |t| && |ac| == 63
    requires DecodeDc(t, p, htdc) == Some(Decoded(diff, m))
    requires DecodeAc(t, m, 1, htac) == Some(Decoded(ac, q))
    ensures DecodeBlock(t, p, pred, htdc, htac) == Some(Decoded([pred + diff] + ac, q))
  {
  }

  /** Unfolding step: predictor plus difference, then the AC part, is the block. */
  lemma BlockFromParts(du: Block, pred: int)
    ensures [pred + (du[0] - pred)] + du[1..] == du
  {
  }

  /** Blocks in range that produce the same events from the same predictor are equal. */
  lemma ProcessDuInjective(du1: Block, du2: Block, pred: int, htdc: Table, htac: Table)
    requires Abs(du1[0] - pred) < 0x10000 && AcInRange(du1)
    requires Abs(du2[0] - pred) < 0x10000 && AcInRange(du2)
    requires ProcessDu(du1, pred, htdc, htac).events == ProcessDu(du2, pred, htdc, htac).events
    ensures du1 == du2
  {
    var t := ProcessDu(du1, pred, htdc, htac).events;
    assert t[0..|t|] == t;
    ProcessDuRoundTrip(du1, pred, htdc, htac, t, 0);
    ProcessDuRoundTrip(du2, pred, htdc, htac, t, 0);
  }
}

=== FILE: driver.dfy ===
/**
 * JpegWriteBlockSubs (lines 184-230) and JpegWriteBlockFull (lines
 * 232-268): the order in which the blocks of an MCU are handed to
 * JpegProcessDu, and how the three DC predictors dc[0], dc[1], dc[2] are
 * threaded through them.  The floating-point front end (colour conversion,
 * chroma averaging, DCT, scaling and rounding) is a parameter
 * `fe: BlockRef -> Block` giving the quantised coefficients, in zigzag
 * order, of the block that JpegProcessDu is called on.
 */
module Driver {
  import opened Magnitude
  import ZigZag
  import opened Entropy
  import opened Decode
  import opened Sampling
  import opened Raster

  /** 4:2:0 (JpegWriteBlockSubs) or 4:4:4 (JpegWriteBlockFull). */
  datatype Mode = Subsampled | Full

  datatype Component = Y | U | V

  /** The side of an MCU in pixels (lines 189 and 237, and the buffers of lines 192 and 240). */
  function McuSize(mode: Mode): (s: nat)
    ensures s == 8 || s == 16
  {
    if mode == Subsampled then 16 else 8
  }

  /**
   * One call of JpegProcessDu: the component, the origin (x, y) of the MCU
   * in the image, and where the block sits in the component's buffer.
   */
  datatype BlockRef = BlockRef(comp: Component, x: nat, y: nat, offset: nat, stride: nat)

  /** Luma uses HuffmanYdc/HuffmanYac, both chroma components HuffmanUVdc/HuffmanUVac. */
  function DcTable(c: Component): (t: Table)
    ensures t == LumaDc || t == ChromaDc
    ensures t == LumaDc <==> c == Y
  {
    if c == Y then LumaDc else ChromaDc
  }

  function AcTable(c: Component): (t: Table)
    ensures t == LumaAc || t == ChromaAc
    ensures t == LumaAc <==> c == Y
  {
    if c == Y then LumaAc else ChromaAc
  }

  /** dc[0], dc[1], dc[2] of the drivers: DCY, DCU and DCV. */
  datatype Predictors = Predictors(y: int, u: int, v: int)

  function Get(dc: Predictors, c: Component): int
  {
    match c
    case Y => dc.y
    case U => dc.u
    case V => dc.v
  }

  /** Assigning the predictor of one component leaves the other two alone. */
  function Set(dc: Predictors, c: Component, value: int): (r: Predictors)
    ensures Get(r, c) == value
    ensures forall c' :: c' != c ==> Get(r, c') == Get(dc, c')
  {
    match c
    case Y => dc.(y := value)
    case U => dc.(u := value)
    case V => dc.(v := value)
  }

  /**
   * The blocks of the MCU at (x, y), in the order the drivers code them:
   * in 4:2:0 the four luma blocks at offsets 0, 8, 128, 136 of the 16 x 16
   * buffer (stride 16), then the averaged U and V blocks (stride 8)
   * (lines 197-204 and 220-227); in 4:4:4 one block each of Y, U and V
   * (lines 244-246 and 263-265).
   */
  function McuBlocks(mode: Mode, x: nat, y: nat): (bs: seq<BlockRef>)
    ensures |bs| == (if mode == Subsampled then 6 else 3)
    ensures forall i :: 0 <= i < |bs| ==> bs[i].x == x && bs[i].y == y
    ensures forall i, s :: 0 <= i < |bs| && 0 <= s < 64 ==> BlockSample(bs[i], s) < BufferSize(mode, bs[i].comp)
  {
    match mode
    case Subsampled =>
      [BlockRef(Y, x, y, LumaOffset(0), 16), BlockRef(Y, x, y, LumaOffset(1), 16),
       BlockRef(Y, x, y, LumaOffset(2), 16), BlockRef(Y, x, y, LumaOffset(3), 16),
       BlockRef(U, x, y, 0, 8), BlockRef(V, x, y, 0, 8)]
    case Full =>
      [BlockRef(Y, x, y, 0, 8), BlockRef(U, x, y, 0, 8), BlockRef(V, x, y, 0, 8)]
  }

  function Rank(c: Component): nat
  {
    match c
    case Y => 0
    case U => 1
    case V => 2
  }

  /**
   * Within an MCU all blocks share the MCU's origin, luma comes first, and
   * the components never interleave: every Y block precedes every U block,
   * which precedes every V block.
   */
  lemma McuBlockOrder(mode: Mode, x: nat, y: nat)
    ensures var bs := McuBlocks(mode, x, y);
      |bs| > 0 && bs[0].comp == Y && bs[|bs| - 1].comp == V &&
      (forall i, j :: 0 <= i < j < |bs| ==> Rank(bs[i].comp) <= Rank(bs[j].comp)) &&
      (forall i :: 0 <= i < |bs| ==> bs[i].x == x && bs[i].y == y)
  {
  }

  /** The buffer position that sample s (row s / 8, column s % 8) of block b is read from. */
  function BlockSample(b: BlockRef, s: nat): nat
    requires s < 64
  {
    b.offset + ZigZag.SampleIndex(s, b.stride)
  }

  /**
   * The buffer JpegProcessDu reads a component's blocks from: the S x S
   * luma buffer, and for chroma the 8 x 8 buffer (U and V themselves in
   * 4:4:4, the averaged subU and subV in 4:2:0).
   */
  function BufferSize(mode: Mode, c: Component): nat
  {
    if c == Y then McuSize(mode) * McuSize(mode) else 64
  }

  /** Every position of a component's buffer is read by some block of that component. */
  lemma McuBlocksCoverBuffers(mode: Mode, x: nat, y: nat, c: Component, pos: nat)
    requires pos < BufferSize(mode, c)
    ensures exists i, s ::
      (0 <= i < |McuBlocks(mode, x, y)| && 0 <= s < 64 &&
       McuBlocks(mode, x, y)[i].comp == c && BlockSample(McuBlocks(mode, x, y)[i], s) == pos)
  {
    var bs := McuBlocks(mode, x, y);
    var i, s;
    if c == Y && mode == Subsampled {
      i, s := LumaBlockOf(x, y, pos);
    } else {
      i, s := if c == Y then 0 else if c == U then |bs| - 2 else |bs| - 1, pos;
      assert BlockSample(bs[i], s) == pos;
    }
    assert 0 <= i < |bs| && 0 <= s < 64 && bs[i].comp == c && BlockSample(bs[i], s) == pos;
  }

  lemma LumaBlockOf(x: nat, y: nat, pos: nat) returns (i: nat, s: nat)
    requires pos < 256
    ensures i < 4 && s < 64
    ensures McuBlocks(Subsampled, x, y)[i].comp == Y && BlockSample(McuBlocks(Subsampled, x, y)[i], s) == pos
  {
    var brc := LumaSource(pos);
    i, s := brc.0, brc.1 * 8 + brc.2;
    assert s / 8 == brc.1 && s % 8 == brc.2;
  }

  /** ... and by only one: no two samples of the MCU's blocks of one component share a position. */
  lemma McuBlocksDisjoint(mode: Mode, x: nat, y: nat, i: nat, s: nat, j: nat, s': nat)
    requires i < |McuBlocks(mode, x, y)| && j < |McuBlocks(mode, x, y)| && s < 64 && s' < 64
    requires McuBlocks(mode, x, y)[i].comp == McuBlocks(mode, x, y)[j].comp
    requires BlockSample(McuBlocks(mode, x, y)[i], s) == BlockSample(McuBlocks(mode, x, y)[j], s')
    ensures i == j && s == s'
  {
    var bs := McuBlocks(mode, x, y);
    if mode == Subsampled && bs[i].comp == Y {
      LumaBlocksDisjoint(i, s / 8, s % 8, j, s' / 8, s' % 8);
    }
  }

  // ---------------------------------------------------------------------
  // DC predictor threading

  /** The events written for a run of blocks, and dc[] afterwards. */
  datatype Encoded = Encoded(events: seq<Event>, dc: Predictors)

  /**
   * Codes the blocks in order: each JpegProcessDu call gets the predictor
   * of its component, and its result becomes that component's predictor.
   */
  function EncodeBlocks(refs: seq<BlockRef>, fe: BlockRef -> Block, dc: Predictors): (r: Encoded)
    ensures |r.events| >= 2 * |refs|
    ensures |refs| > 0 ==> Get(r.dc, refs[|refs| - 1].comp) == fe(refs[|refs| - 1])[0]
    decreases |refs|
  {
    if |refs| == 0 then Encoded([], dc)
    else
      var b := refs[0];
      var coded := ProcessDu(fe(b), Get(dc, b.comp), DcTable(b.comp), AcTable(b.comp));
      var rest := EncodeBlocks(refs[1..], fe, Set(dc, b.comp, coded.dc));
      Encoded(coded.events + rest.events, rest.dc)
  }

  /**
   * The predictor for component c after the blocks refs: the DC coefficient
   * of the last block of c among them, or `init` when there is none.
   */
  function LastDc(refs: seq<BlockRef>, fe: BlockRef -> Block, c: Component, init: int): int
    decreases |refs|
  {
    if |refs| == 0 then init
    else if refs[|refs| - 1].comp == c then fe(refs[|refs| - 1])[0]
    else LastDc(refs[..|refs| - 1], fe, c, init)
  }

  function LastDcs(refs: seq<BlockRef>, fe: BlockRef -> Block, dc: Predictors): Predictors
  {
    Predictors(LastDc(refs, fe, Y, dc.y), LastDc(refs, fe, U, dc.u), LastDc(refs, fe, V, dc.v))
  }

  /**
   * A reference reading of the drivers' output: block n is coded against
   * the DC of the previous block of the same component, whatever blocks of
   * other components came in between, and the first block of a component
   * against the predictor passed in.
   */
  function Reference(refs: seq<BlockRef>, fe: BlockRef -> Block, dc: Predictors): seq<Event>
    decreases |refs|
  {
    if |refs| == 0 then []
    else
      var n := |refs| - 1;
      var b := refs[n];
      var pred := LastDc(refs[..n], fe, b.comp, Get(dc, b.comp));
      Reference(refs[..n], fe, dc) + ProcessDu(fe(b), pred, DcTable(b.comp), AcTable(b.comp)).events
  }

  /** Coding a + b is coding a, then coding b from the predictors a leaves. */
  lemma {:induction false} EncodeBlocksAppend(a: seq<BlockRef>, b: seq<BlockRef>, fe: BlockRef -> Block, dc: Predictors)
    ensures EncodeBlocks(a + b, fe, dc) ==
      Encoded(EncodeBlocks(a, fe, dc).events + EncodeBlocks(b, fe, EncodeBlocks(a, fe, dc).dc).events,
              EncodeBlocks(b, fe, EncodeBlocks(a, fe, dc).dc).dc)
    decreases |a|
  {
    hide ProcessDu;
    if |a| == 0 {
      assert a + b == b;
    } else {
      var h := a[0];
      var coded := ProcessDu(fe(h), Get(dc, h.comp), DcTable(h.comp), AcTable(h.comp));
      var dc1 := Set(dc, h.comp, coded.dc);
      assert (a + b)[0] == h;
      assert (a + b)[1..] == a[1..] + b;
      EncodeBlocksAppend(a[1..], b, fe, dc1);
    }
  }

  /** Predictors after the blocks are the last DC of each component. */
  lemma {:induction false} EncodeBlocksPredictors(refs: seq<BlockRef>, fe: BlockRef -> Block, dc: Predictors)
    ensures EncodeBlocks(refs, fe, dc).dc == LastDcs(refs, fe, dc)
    decreases |refs|
  {
    hide ProcessDu;
    if |refs| > 0 {
      var n := |refs| - 1;
      assert refs == refs[..n] + [refs[n]];
      EncodeBlocksPredictors(refs[..n], fe, dc);
      EncodeBlocksAppend(refs[..n], [refs[n]], fe, dc);
      var mid := EncodeBlocks(refs[..n], fe, dc).dc;
      assert [refs[n]][1..] == [];
      var last := Set(mid, refs[n].comp, fe(refs[n])[0]);
      assert EncodeBlocks(refs, fe, dc).dc == last;
      assert Get(last, Y) == LastDc(refs, fe, Y, dc.y);
      assert Get(last, U) == LastDc(refs, fe, U, dc.u);
      assert Get(last, V) == LastDc(refs, fe, V, dc.v);
    }
  }

  /** The drivers' threading of dc[] codes every block against the previous DC of its component. */
  lemma {:induction false} EncodeBlocksIsReference(refs: seq<BlockRef>, fe: BlockRef -> Block, dc: Predictors)
    ensures EncodeBlocks(refs, fe, dc).events == Reference(refs, fe, dc)
    decreases |refs|
  {
    hide ProcessDu;
    if |refs| > 0 {
      var n := |refs| - 1;
      var b := refs[n];
      assert refs == refs[..n] + [b];
      EncodeBlocksIsReference(refs[..n], fe, dc);
      EncodeBlocksAppend(refs[..n], [b], fe, dc);
      EncodeBlocksPredictors(refs[..n], fe, dc);
      var mid := EncodeBlocks(refs[..n], fe, dc).dc;
      assert Get(mid, b.comp) == LastDc(refs[..n], fe, b.comp, Get(dc, b.comp));
      assert [b][1..] == [];
    }
  }

  // ---------------------------------------------------------------------
  // The MCU as the drivers write it

  /**
   * A 4:2:0 MCU (lines 197-204): DCY is threaded through the four luma
   * blocks, then the U block is coded against DCU and the V block against
   * DCV; afterwards dc[] holds the DC of the last luma block, of U and of V.
   */
  lemma SubsampledMcu(x: nat, y: nat, fe: BlockRef -> Block, dc: Predictors)
    ensures var bs := McuBlocks(Subsampled, x, y);
      EncodeBlocks(bs, fe, dc) == Encoded(
        ProcessDu(fe(bs[0]), dc.y, LumaDc, LumaAc).events +
        (ProcessDu(fe(bs[1]), fe(bs[0])[0], LumaDc, LumaAc).events +
        (ProcessDu(fe(bs[2]), fe(bs[1])[0], LumaDc, LumaAc).events +
        (ProcessDu(fe(bs[3]), fe(bs[2])[0], LumaDc, LumaAc).events +
        (ProcessDu(fe(bs[4]), dc.u, ChromaDc, ChromaAc).events +
        (ProcessDu(fe(bs[5]), dc.v, ChromaDc, ChromaAc).events + []))))),
        Predictors(fe(bs[3])[0], fe(bs[4])[0], fe(bs[5])[0]))
  {
    hide ProcessDu, EncodeBlocks;
    var bs := McuBlocks(Subsampled, x, y);
    var y0, y1, y2, y3, u, v := fe(bs[0])[0], fe(bs[1])[0], fe(bs[2])[0], fe(bs[3])[0], fe(bs[4])[0], fe(bs[5])[0];
    EncodeStep(bs, fe, dc);
    EncodeStep(bs[1..], fe, Predictors(y0, dc.u, dc.v));
    EncodeStep(bs[2..], fe, Predictors(y1, dc.u, dc.v));
    EncodeStep(bs[3..], fe, Predictors(y2, dc.u, dc.v));
    EncodeStep(bs[4..], fe, Predictors(y3, dc.u, dc.v));
    EncodeStep(bs[5..], fe, Predictors(y3, u, dc.v));
    EncodeEmpty(bs[6..], fe, Predictors(y3, u, v));
    assert bs[1..][1..] == bs[2..] && bs[2..][1..] == bs[3..] && bs[3..][1..] == bs[4..];
    assert bs[4..][1..] == bs[5..] && bs[5..][1..] == bs[6..];
  }

  /** A 4:4:4 MCU (lines 244-246): one block each of Y, U and V, each against its own predictor. */
  lemma FullMcu(x: nat, y: nat, fe: BlockRef -> Block, dc: Predictors)
    ensures var bs := McuBlocks(Full, x, y);
      EncodeBlocks(bs, fe, dc) == Encoded(
        ProcessDu(fe(bs[0]), dc.y, LumaDc, LumaAc).events +
        (ProcessDu(fe(bs[1]), dc.u, ChromaDc, ChromaAc).events +
        (ProcessDu(fe(bs[2]), dc.v, ChromaDc, ChromaAc).events + [])),
        Predictors(fe(bs[0])[0], fe(bs[1])[0], fe(bs[2])[0]))
  {
    hide ProcessDu, EncodeBlocks;
    var bs := McuBlocks(Full, x, y);
    var y0, u, v := fe(bs[0])[0], fe(bs[1])[0], fe(bs[2])[0];
    EncodeStep(bs, fe, dc);
    EncodeStep(bs[1..], fe, Predictors(y0, dc.u, dc.v));
    EncodeStep(bs[2..], fe, Predictors(y0, u, dc.v));
    EncodeEmpty(bs[3..], fe, Predictors(y0, u, v));
    assert bs[1..][1..] == bs[2..] && bs[2..][1..] == bs[3..];
  }

  /** One JpegProcessDu call, then the rest of the blocks from the updated predictors. */
  lemma EncodeStep(refs: seq<BlockRef>, fe: BlockRef -> Block, dc: Predictors)
    requires |refs| > 0
    ensures var b := refs[0];
      var rest := EncodeBlocks(refs[1..], fe, Set(dc, b.comp, fe(b)[0]));
      EncodeBlocks(refs, fe, dc) ==
        Encoded(ProcessDu(fe(b), Get(dc, b.comp), DcTable(b.comp), AcTable(b.comp)).events + rest.events, rest.dc)
  {
    hide ProcessDu;
  }

  /** Unfolding step: no blocks, no events, predictors unchanged. */
  lemma EncodeEmpty(refs: seq<BlockRef>, fe: BlockRef -> Block, dc: Predictors)
    requires |refs| == 0
    ensures EncodeBlocks(refs, fe, dc) == Encoded([], dc)
  {
  }

  // ---------------------------------------------------------------------
  // Decoding a run of blocks

  function Components(refs: seq<BlockRef>): (cs: seq<Component>)
    ensures |cs| == |refs| && forall i :: 0 <= i < |refs| ==> cs[i] == refs[i].comp
  {
    seq(|refs|, i requires 0 <= i < |refs| => refs[i].comp)
  }

  function Fronts(refs: seq<BlockRef>, fe: BlockRef -> Block): (du: seq<Block>)
    ensures |du| == |refs| && forall i :: 0 <= i < |refs| ==> du[i] == fe(refs[i])
  {
    seq(|refs|, i requires 0 <= i < |refs| => fe(refs[i]))
  }

  /**
   * A decoder for a run of blocks whose components are known, as the
   * frame header and MCU layout make them known to a JPEG decoder: each
   * block is decoded against its component's predictor, which then becomes
   * that block's DC coefficient.
   */
  function DecodeBlocks(t: seq<Event>, p: nat, comps: seq<Component>, dc: Predictors): (o: Option<Decoded<seq<Block>>>)
    requires p <= |t|
    ensures o.Some? ==> |o.value.value| == |comps| && p <= o.value.next <= |t|
    decreases |comps|
  {
    if |comps| == 0 then Some(Decoded([], p))
    else
      var c := comps[0];
      match DecodeBlock(t, p, Get(dc, c), DcTable(c), AcTable(c))
      case None => None
      case Some(d) =>
        match DecodeBlocks(t, d.next, comps[1..], Set(dc, c, d.value[0]))
        case None => None
        case Some(ds) => Some(Decoded([d.value] + ds.value, ds.next))
  }

  /**
   * Every coefficient of every block is below 2^15 in magnitude: the AC
   * ones so that SSSS fits the four bits of a symbol, the DC ones so that
   * the difference of two of them fits the 16-bit field of JpegCalcBits.
   */
  predicate AllInRange(refs: seq<BlockRef>, fe: BlockRef -> Block)
  {
    forall i :: 0 <= i < |refs| ==> AcInRange(fe(refs[i])) && Abs(fe(refs[i])[0]) < 0x8000
  }

  /** The DC predictors lie in the same range as the DC coefficients. */
  predicate PredictorsInRange(dc: Predictors)
  {
    Abs(dc.y) < 0x8000 && Abs(dc.u) < 0x8000 && Abs(dc.v) < 0x8000
  }

  /** A DC coefficient in range differs from an in-range predictor by less than 2^16, and replaces it in range. */
  lemma PredictorStep(dc: Predictors, c: Component, d: int)
    requires PredictorsInRange(dc) && Abs(d) < 0x8000
    ensures Abs(d - Get(dc, c)) < 0x10000 && PredictorsInRange(Set(dc, c, d))
  {
  }

  /**
   * Whatever stream the drivers' events sit in, decoding from where they
   * start, with the same initial predictors, gives back every block, and
   * stops right after them.
   */
  lemma {:induction false} BlocksRoundTrip(refs: seq<BlockRef>, fe: BlockRef -> Block, dc: Predictors, t: seq<Event>, p: nat)
    requires AllInRange(refs, fe) && PredictorsInRange(dc)
    requires Occurs(t, p, EncodeBlocks(refs, fe, dc).events)
    ensures DecodeBlocks(t, p, Components(refs), dc)
      == Some(Decoded(Fronts(refs, fe), p + |EncodeBlocks(refs, fe, dc).events|))
    decreases |refs|
  {
    hide ProcessDu, EncodeBlocks, DecodeBlocks, DecodeBlock, Fronts, Components, AllInRange, PredictorsInRange;
    if |refs| == 0 {
      EncodeEmpty(refs, fe, dc);
      DecodeEmpty(t, p, Components(refs), dc);
      assert Fronts(refs, fe) == [];
    } else {
      var b := refs[0];
      var coded := ProcessDu(fe(b), Get(dc, b.comp), DcTable(b.comp), AcTable(b.comp));
      var dc1 := Set(dc, b.comp, fe(b)[0]);
      var rest := EncodeBlocks(refs[1..], fe, dc1);
      EncodeStep(refs, fe, dc);
      OccursSplit(t, p, coded.events, rest.events);
      AllInRangeTail(refs, fe);
      PredictorStep(dc, b.comp, fe(b)[0]);
      ProcessDuRoundTrip(fe(b), Get(dc, b.comp), DcTable(b.comp), AcTable(b.comp), t, p);
      BlocksRoundTrip(refs[1..], fe, dc1, t, p + |coded.events|);
      MapsCons(refs, fe);
      DecodeStep(t, p, Components(refs), dc, fe(b), p + |coded.events|,
                 Fronts(refs[1..], fe), p + |coded.events| + |rest.events|);
    }
  }

  /** Unfolding step: the component and front-end lists of a non-empty block list. */
  lemma MapsCons(refs: seq<BlockRef>, fe: BlockRef -> Block)
    requires |refs| > 0
    ensures Components(refs)[0] == refs[0].comp && Components(refs)[1..] == Components(refs[1..])
    ensures Fronts(refs, fe) == [fe(refs[0])] + Fronts(refs[1..], fe)
  {
  }

  /** Unfolding step: decoding no blocks consumes nothing. */
  lemma DecodeEmpty(t: seq<Event>, p: nat, comps: seq<Component>, dc: Predictors)
    requires p <= |t| && |comps| == 0
    ensures DecodeBlocks(t, p, comps, dc) == Some(Decoded([], p))
  {
  }

  lemma AllInRangeTail(refs: seq<BlockRef>, fe: BlockRef -> Block)
    requires |refs| > 0 && AllInRange(refs, fe)
    ensures AcInRange(fe(refs[0])) && Abs(fe(refs[0])[0]) < 0x8000 && AllInRange(refs[1..], fe)
  {
    forall i | 0 <= i < |refs[1..]| ensures AcInRange(fe(refs[1..][i])) && Abs(fe(refs[1..][i])[0]) < 0x8000 {
      assert refs[1..][i] == refs[i + 1];
    }
  }

  /** One block decoded, then the rest from the updated predictors. */
  lemma DecodeStep(t: seq<Event>, p: nat, comps: seq<Component>, dc: Predictors,
                   du: Block, m: nat, rest: seq<Block>, q: nat)
    requires p <= m <= |t| && |comps| > 0
    requires DecodeBlock(t, p, Get(dc, comps[0]), DcTable(comps[0]), AcTable(comps[0])) == Some(Decoded(du, m))
    requires DecodeBlocks(t, m, comps[1..], Set(dc, comps[0], du[0])) == Some(Decoded(rest, q))
    ensures DecodeBlocks(t, p, comps, dc) == Some(Decoded([du] + rest, q))
  {
  }

  // ---------------------------------------------------------------------
  // The whole image

  /** The blocks of the MCUs, MCU after MCU. */
  function ImageRefs(mode: Mode, mcus: seq<Mcu>): (refs: seq<BlockRef>)
    ensures |refs| == |mcus| * |McuBlocks(mode, 0, 0)|
    decreases |mcus|
  {
    if |mcus| == 0 then []
    else McuBlocks(mode, mcus[0].x, mcus[0].y) + ImageRefs(mode, mcus[1..])
  }

  lemma {:induction false} ImageRefsSnoc(mode: Mode, mcus: seq<Mcu>, m: Mcu)
    ensures ImageRefs(mode, mcus + [m]) == ImageRefs(mode, mcus) + McuBlocks(mode, m.x, m.y)
    decreases |mcus|
  {
    if |mcus| == 0 {
      assert mcus + [m] == [m] && [m][1..] == [];
    } else {
      assert (mcus + [m])[0] == mcus[0] && (mcus + [m])[1..] == mcus[1..] + [m];
      ImageRefsSnoc(mode, mcus[1..], m);
    }
  }

  /**
   * Block b of MCU k is block k * B + b of the image, B being the number of
   * blocks per MCU: blocks of one MCU are consecutive, MCUs in raster order.
   */
  lemma {:induction false} ImageRefsAt(mode: Mode, mcus: seq<Mcu>, k: nat, b: nat)
    requires k < |mcus| && b < |McuBlocks(mode, 0, 0)|
    ensures k * |McuBlocks(mode, 0, 0)| + b < |ImageRefs(mode, mcus)|
    ensures ImageRefs(mode, mcus)[k * |McuBlocks(mode, 0, 0)| + b] == McuBlocks(mode, mcus[k].x, mcus[k].y)[b]
    decreases k
  {
    hide *;
    var n := |McuBlocks(mode, 0, 0)|;
    MulBound(k, b, |mcus|, n);
    ImageRefsCons(mode, mcus);
    if k > 0 {
      ImageRefsAt(mode, mcus[1..], k - 1, b);
      assert k * n + b == n + ((k - 1) * n + b);
    }
  }

  /** Unfolding step: the first MCU's blocks, then the rest. */
  lemma ImageRefsCons(mode: Mode, mcus: seq<Mcu>)
    requires |mcus| > 0
    ensures ImageRefs(mode, mcus) == McuBlocks(mode, mcus[0].x, mcus[0].y) + ImageRefs(mode, mcus[1..])
    ensures |McuBlocks(mode, mcus[0].x, mcus[0].y)| == |McuBlocks(mode, 0, 0)|
  {
  }

  /**
   * The drivers over the whole image: MCU after MCU of the raster walk,
   * each MCU's blocks coded with dc[] as the previous MCU left it.
   */
  method WriteBlocks(mode: Mode, width: nat, height: nat, fe: BlockRef -> Block, dc: Predictors) returns (r: Encoded)
    ensures r == EncodeBlocks(ImageRefs(mode, Grid(width, height, McuSize(mode))), fe, dc)
  {
    hide *;
    var mcus := McuWalk(width, height, McuSize(mode));
    r := Encoded([], dc);
    EncodeEmpty(ImageRefs(mode, mcus[..0]), fe, dc);
    var k := 0;
    while k < |mcus|
      invariant k <= |mcus|
      invariant r == EncodeBlocks(ImageRefs(mode, mcus[..k]), fe, dc)
    {
      var m := EncodeBlocks(McuBlocks(mode, mcus[k].x, mcus[k].y), fe, r.dc);
      ImageRefsSnoc(mode, mcus[..k], mcus[k]);
      EncodeBlocksAppend(ImageRefs(mode, mcus[..k]), McuBlocks(mode, mcus[k].x, mcus[k].y), fe, dc);
      assert mcus[..k + 1] == mcus[..k] + [mcus[k]];
      r := Encoded(r.events + m.events, m.dc);
      k := k + 1;
    }
    assert mcus[..k] == mcus;
  }

  /**
   * Decoding the events of a whole image, with the decoder knowing only the
   * MCU layout and the initial predictors, gives back every block in
   * order, and consumes exactly the events written.
   */
  lemma ImageRoundTrip(mode: Mode, width: nat, height: nat, fe: BlockRef -> Block, dc: Predictors)
    requires AllInRange(ImageRefs(mode, Grid(width, height, McuSize(mode))), fe) && PredictorsInRange(dc)
    ensures var refs := ImageRefs(mode, Grid(width, height, McuSize(mode)));
      var events := EncodeBlocks(refs, fe, dc).events;
      DecodeBlocks(events, 0, Components(refs), dc) == Some(Decoded(Fronts(refs, fe), |events|))
  {
    hide ProcessDu, EncodeBlocks, DecodeBlocks, ImageRefs, Grid, AllInRange, PredictorsInRange, Fronts, Components;
    var refs := ImageRefs(mode, Grid(width, height, McuSize(mode)));
    var events := EncodeBlocks(refs, fe, dc).events;
    assert events[0..|events|] == events;
    BlocksRoundTrip(refs, fe, dc, events, 0);
  }
}

=== FILE: entropy.dfy ===
/**
 * The entropy coder of one 8x8 block (JpegProcessDu after the DCT and the
 * zigzag placement): the DC coefficient is coded as its difference from the
 * running predictor (section F.1.2.1 of ITU-T T.81) and the 63 AC
 * coefficients as run/size symbols RRRRSSSS with ZRL and EOB
 * (section F.1.2.2).
 *
 * The output stream is kept abstract: every call of WriteJpegBits becomes
 * one Event, either a Huffman symbol looked up in one of the four tables
 * or a field of magnitude bits.
 */
module Entropy {
  import opened Magnitude

  /** The four Huffman tables: HuffmanYdc, HuffmanYac, HuffmanUVdc, HuffmanUVac. */
  datatype Table = LumaDc | LumaAc | ChromaDc | ChromaAc

  datatype Event =
    | Huff(table: Table, symbol: nat)   // WriteJpegBits(table[symbol])
    | Extra(bits: nat, size: nat)       // WriteJpegBits(bits): `size` magnitude bits

  /** Sixteen zeros (run 15, size 0). */
  const ZRL: nat := 0xF0
  /** End of block (run 0, size 0). */
  const EOB: nat := 0x00

  function Zeros(n: nat): seq<int>
  {
    seq(n, _ => 0)
  }

  /** The 64 quantised coefficients of one block, in zigzag order. */
  type Block = du: seq<int> | |du| == 64 witness Zeros(64)

  /**
   * Lines 98-107: the DC-table symbol SSSS of the difference and, unless
   * the difference is 0, its SSSS magnitude bits as the uint16_t field
   * holds them.
   */
  function DcEvents(diff: int, htdc: Table): (r: seq<Event>)
    ensures |r| == 1 <==> diff == 0
    ensures 1 <= |r| <= 2 && r[0].Huff? && r[0].table == htdc && r[0].symbol == Category(diff)
    ensures |r| == 2 ==> r[1].Extra? && r[1].size == r[0].symbol && r[1].bits < 0x10000
  {
    if diff == 0 then [Huff(htdc, 0)]
    else [Huff(htdc, Category(diff)), Extra(Field(diff), Category(diff))]
  }

  /**
   * Line 109: `end0pos` walks down from k while the coefficient is zero,
   * stopping at 0.  The result is the last non-zero AC position at or
   * below k, or 0 when there is none.
   */
  function LastNonZero(du: Block, k: nat): (end0pos: nat)
    requires k <= 63
    ensures end0pos <= k
    ensures end0pos == 0 || du[end0pos] != 0
    ensures forall m :: end0pos < m <= k ==> du[m] == 0
  {
    if k > 0 && du[k] == 0 then LastNonZero(du, k - 1) else k
  }

  /**
   * Line 120: skip zero coefficients.  The source tests DU[i] == 0 before
   * i <= end0pos; the read stays inside the block because the scan stops
   * at DU[end0pos], which is non-zero.
   */
  function SkipZeros(du: Block, i: nat, end0pos: nat): (j: nat)
    requires i <= end0pos <= 63 && du[end0pos] != 0
    ensures i <= j <= end0pos && du[j] != 0
    ensures forall m :: i <= m < j ==> du[m] == 0
    decreases end0pos - i
  {
    if du[i] == 0 && i <= end0pos then SkipZeros(du, i + 1, end0pos) else i
  }

  /** A run of `zeros` zero coefficients closed by the non-zero coefficient `value`. */
  datatype Run = Run(zeros: nat, value: int)

  /** Every run is closed by a non-zero value, as the encoder's runs always are. */
  predicate ValidRuns(rs: seq<Run>)
  {
    forall k :: 0 <= k < |rs| ==> rs[k].value != 0
  }

  /**
   * Lines 115-121: the AC coefficients i..end0pos cut into runs.  Each pass
   * of the outer loop skips zeros up to the next non-zero coefficient and
   * counts them as `nrzeroes`.
   */
  function Runs(du: Block, i: nat, end0pos: nat): (rs: seq<Run>)
    requires 1 <= i <= end0pos + 1 && end0pos <= 63 && du[end0pos] != 0
    ensures ValidRuns(rs)
    ensures |rs| == 0 <==> i > end0pos
    decreases end0pos + 1 - i
  {
    if i > end0pos then []
    else
      var j := SkipZeros(du, i, end0pos);
      [Run(j - i, du[j])] + Runs(du, j + 1, end0pos)
  }

  /** The coefficients a list of runs stands for. */
  function Expand(rs: seq<Run>): seq<int>
  {
    if |rs| == 0 then [] else Zeros(rs[0].zeros) + [rs[0].value] + Expand(rs[1..])
  }

  /**
   * Lines 122-132: a run of `nrzeroes` zeros ended by the non-zero value v
   * is written as one ZRL per full sixteen zeros, then the symbol
   * (remaining run << 4) + SSSS, then the magnitude bits of v.
   */
  function RunEvents(nrzeroes: nat, v: int, htac: Table): (r: seq<Event>)
    requires v != 0
    ensures |r| == nrzeroes / 16 + 2
    ensures forall k :: 0 <= k < nrzeroes / 16 ==> r[k] == Huff(htac, ZRL)
    ensures r[|r| - 2].Huff? && r[|r| - 2].table == htac
    ensures r[|r| - 2].symbol != EOB
    ensures Category(v) <= 15 ==>
      && r[|r| - 2].symbol < 256 && r[|r| - 2].symbol != ZRL
      && r[|r| - 2].symbol / 16 == nrzeroes % 16
      && r[|r| - 2].symbol % 16 == Category(v)
    ensures r[|r| - 1] == Extra(Field(v), Category(v))
  {
    var markers := if nrzeroes >= 16 then nrzeroes / 16 else 0;
    var rest := if nrzeroes >= 16 then nrzeroes % 16 else nrzeroes;
    seq(markers, _ => Huff(htac, ZRL))
      + [Huff(htac, rest * 16 + Category(v)), Extra(Field(v), Category(v))]
  }

  /** The events written for a list of runs, in order. */
  function RunsEvents(rs: seq<Run>, htac: Table): (r: seq<Event>)
    requires ValidRuns(rs)
    ensures |r| >= 2 * |rs|
    ensures |rs| > 0 ==> r[|r| - 1].Extra?
  {
    if |rs| == 0 then []
    else RunEvents(rs[0].zeros, rs[0].value, htac) + RunsEvents(rs[1..], htac)
  }

  /**
   * Lines 108-114 and 134-135: a block whose AC coefficients are all zero
   * is a single EOB; otherwise the runs up to the last non-zero
   * coefficient, followed by EOB unless that coefficient is the 63rd.
   */
  function EncodeAc(du: Block, htac: Table): (r: seq<Event>)
    ensures |r| > 0
    ensures (forall m :: 1 <= m < 64 ==> du[m] == 0) <==> r == [Huff(htac, EOB)]
  {
    var end0pos := LastNonZero(du, 63);
    if end0pos == 0 then [Huff(htac, EOB)]
    else RunsEvents(Runs(du, 1, end0pos), htac) + (if end0pos != 63 then [Huff(htac, EOB)] else [])
  }

  /** A block with no non-zero AC coefficient is a lone EOB. */
  lemma EncodeAcAllZero(du: Block, htac: Table)
    requires LastNonZero(du, 63) == 0
    ensures EncodeAc(du, htac) == [Huff(htac, EOB)]
    ensures du[1..] == Zeros(63)
  {
  }

  /** Otherwise it is the runs up to the last non-zero coefficient, then EOB unless that is the 63rd. */
  lemma EncodeAcOfRuns(du: Block, htac: Table, end0pos: nat)
    requires end0pos == LastNonZero(du, 63) && end0pos > 0
    ensures EncodeAc(du, htac)
      == RunsEvents(Runs(du, 1, end0pos), htac) + (if end0pos != 63 then [Huff(htac, EOB)] else [])
  {
  }

  /** The events written for one block and the value JpegProcessDu returns. */
  datatype Coded = Coded(events: seq<Event>, dc: int)

  /**
   * JpegProcessDu on a block already in zigzag order: the DC difference
   * from the predictor, then the AC coefficients.  The returned value, the
   * next predictor, is the quantised DC coefficient, not the difference.
   */
  function ProcessDu(du: Block, pred: int, htdc: Table, htac: Table): (r: Coded)
    ensures |r.events| >= 2
    ensures r.dc == du[0]
    ensures r.events[0] == Huff(htdc, Category(du[0] - pred))
  {
    Coded(DcEvents(du[0] - pred, htdc) + EncodeAc(du, htac), du[0])
  }

  /**
   * Lines 98-107: a zero DC difference is the lone symbol HTDC[0], with no
   * magnitude bits (the next event is already the first AC symbol); a
   * non-zero one is HTDC[SSSS] followed by its SSSS magnitude bits.
   */
  lemma DcFields(du: Block, pred: int, htdc: Table, htac: Table)
    ensures var e := ProcessDu(du, pred, htdc, htac).events;
      (du[0] == pred ==> e[0] == Huff(htdc, 0) && e[1].Huff? && e[1].table == htac) &&
      (du[0] != pred ==>
        e[0] == Huff(htdc, Category(du[0] - pred)) && e[1] == Extra(Field(du[0] - pred), Category(du[0] - pred)))
  {
    var ac := EncodeAc(du, htac);
    EncodeAcStartsWithSymbol(du, htac);
    if du[0] == pred {
      assert ProcessDu(du, pred, htdc, htac).events == [Huff(htdc, 0)] + ac;
    }
  }

  /** The first AC event is a symbol of the AC table: EOB, ZRL or a run/size symbol. */
  lemma EncodeAcStartsWithSymbol(du: Block, htac: Table)
    ensures EncodeAc(du, htac)[0].Huff? && EncodeAc(du, htac)[0].table == htac
  {
    var end0pos := LastNonZero(du, 63);
    if end0pos != 0 {
      EncodeAcOfRuns(du, htac, end0pos);
      var rs := Runs(du, 1, end0pos);
      assert RunsEvents(rs, htac) == RunEvents(rs[0].zeros, rs[0].value, htac) + RunsEvents(rs[1..], htac);
      var first := RunEvents(rs[0].zeros, rs[0].value, htac);
      assert first[0].Huff? && first[0].table == htac by {
        if rs[0].zeros / 16 == 0 {
          assert |first| == 2;
        }
      }
    }
  }

  // ---------------------------------------------------------------------
  // Counting symbols

  /** Number of Huffman symbols equal to s. */
  function CountSymbol(t: seq<Event>, s: nat): nat
  {
    if |t| == 0 then 0
    else (if t[0].Huff? && t[0].symbol == s then 1 else 0) + CountSymbol(t[1..], s)
  }

  /** Number of Huffman symbols that code a coefficient: neither ZRL nor EOB. */
  function CountRunSymbols(t: seq<Event>): nat
  {
    if |t| == 0 then 0
    else
      var coding := t[0].Huff? && t[0].symbol != ZRL && t[0].symbol != EOB;
      (if coding then 1 else 0) + CountRunSymbols(t[1..])
  }

  /** Number of non-zero coefficients among du[lo..hi). */
  function NonZeros(du: seq<int>, lo: nat, hi: nat): nat
    requires lo <= hi <= |du|
    decreases hi - lo
  {
    if lo == hi then 0 else (if du[lo] != 0 then 1 else 0) + NonZeros(du, lo + 1, hi)
  }

  lemma {:induction false} CountSymbolAppend(a: seq<Event>, b: seq<Event>, s: nat)
    ensures CountSymbol(a + b, s) == CountSymbol(a, s) + CountSymbol(b, s)
    decreases |a|
  {
    if |a| == 0 {
      assert a + b == b;
    } else {
      assert (a + b)[0] == a[0];
      assert (a + b)[1..] == a[1..] + b;
      CountSymbolAppend(a[1..], b, s);
    }
  }

  lemma {:induction false} CountRunSymbolsAppend(a: seq<Event>, b: seq<Event>)
    ensures CountRunSymbols(a + b) == CountRunSymbols(a) + CountRunSymbols(b)
    decreases |a|
  {
    if |a| == 0 {
      assert a + b == b;
    } else {
      assert (a + b)[0] == a[0];
      assert (a + b)[1..] == a[1..] + b;
      CountRunSymbolsAppend(a[1..], b);
    }
  }

  lemma {:induction false} NonZerosSplit(du: seq<int>, lo: nat, mid: nat, hi: nat)
    requires lo <= mid <= hi <= |du|
    ensures NonZeros(du, lo, hi) == NonZeros(du, lo, mid) + NonZeros(du, mid, hi)
    decreases mid - lo
  {
    if lo < mid {
      NonZerosSplit(du, lo + 1, mid, hi);
    }
  }

  lemma {:induction false} NonZerosOfZeros(du: seq<int>, lo: nat, hi: nat)
    requires lo <= hi <= |du|
    requires forall m :: lo <= m < hi ==> du[m] == 0
    ensures NonZeros(du, lo, hi) == 0
    decreases hi - lo
  {
    if lo < hi {
      NonZerosOfZeros(du, lo + 1, hi);
    }
  }

  /** Zeros at i..j-1 and a non-zero value at j contribute one non-zero coefficient. */
  lemma NonZerosOfRun(du: seq<int>, i: nat, j: nat, hi: nat)
    requires i <= j < hi <= |du|
    requires forall m :: i <= m < j ==> du[m] == 0
    requires du[j] != 0
    ensures NonZeros(du, i, hi) == 1 + NonZeros(du, j + 1, hi)
  {
    NonZerosSplit(du, i, j, hi);
    NonZerosOfZeros(du, i, j);
  }

  lemma {:induction false} ZrlCounts(n: nat, htac: Table)
    ensures CountSymbol(seq(n, _ => Huff(htac, ZRL)), EOB) == 0
    ensures CountRunSymbols(seq(n, _ => Huff(htac, ZRL))) == 0
  {
    if n > 0 {
      var z := seq(n, _ => Huff(htac, ZRL));
      assert z[1..] == seq(n - 1, _ => Huff(htac, ZRL));
      ZrlCounts(n - 1, htac);
    }
  }

  /**
   * AC coefficients below 2^15 in magnitude: SSSS then fits the four low
   * bits of the symbol (nrzeroes << 4) + SSSS of line 131, and the field
   * fits bits[0] whole.
   */
  predicate AcInRange(du: Block)
  {
    forall m :: 1 <= m < 64 ==> Abs(du[m]) < 0x8000
  }

  lemma Pow2Fifteen()
    ensures Pow2(15) == 0x8000
  {
    assert Pow2(5) == 32;
    assert Pow2(10) == 1024;
  }

  lemma SmallCategory(v: int)
    requires Abs(v) < 0x8000
    ensures Category(v) <= 15
  {
    var c := Category(v);
    if c > 15 {
      Pow2Monotone(15, c - 1);
      Pow2Fifteen();
    }
  }

  lemma CountsOfPair(a: Event, b: Event)
    requires b.Extra?
    ensures CountSymbol([a, b], EOB) == (if a.Huff? && a.symbol == EOB then 1 else 0)
    ensures CountRunSymbols([a, b]) ==
      (if a.Huff? && a.symbol != ZRL && a.symbol != EOB then 1 else 0)
  {
    assert [a, b] == [a] + [b];
    assert [b][1..] == [];
    assert CountSymbol([b], EOB) == 0;
    assert CountRunSymbols([b]) == 0;
    assert [a][1..] == [];
    CountSymbolAppend([a], [b], EOB);
    CountRunSymbolsAppend([a], [b]);
  }

  /** One run holds no EOB. */
  lemma RunEventsNoEob(nrzeroes: nat, v: int, htac: Table)
    requires v != 0
    ensures CountSymbol(RunEvents(nrzeroes, v, htac), EOB) == 0
  {
    var r := RunEvents(nrzeroes, v, htac);
    var n := nrzeroes / 16;
    assert r == r[..n] + r[n..];
    assert r[..n] == seq(n, _ => Huff(htac, ZRL));
    assert r[n..] == [r[n], r[n + 1]];
    ZrlCounts(n, htac);
    CountsOfPair(r[n], r[n + 1]);
    CountSymbolAppend(r[..n], r[n..], EOB);
  }

  /** One run of a representable value holds exactly one symbol that codes a coefficient. */
  lemma RunEventsOneCodingSymbol(nrzeroes: nat, v: int, htac: Table)
    requires v != 0 && Category(v) <= 15
    ensures CountRunSymbols(RunEvents(nrzeroes, v, htac)) == 1
  {
    var r := RunEvents(nrzeroes, v, htac);
    var n := nrzeroes / 16;
    assert r == r[..n] + r[n..];
    assert r[..n] == seq(n, _ => Huff(htac, ZRL));
    assert r[n..] == [r[n], r[n + 1]];
    ZrlCounts(n, htac);
    CountsOfPair(r[n], r[n + 1]);
    CountRunSymbolsAppend(r[..n], r[n..]);
  }

  /** Runs of coefficients in range keep SSSS within four bits. */
  predicate SmallRuns(rs: seq<Run>)
  {
    forall k :: 0 <= k < |rs| ==> Category(rs[k].value) <= 15
  }

  lemma {:induction false} RunsSmall(du: Block, i: nat, end0pos: nat)
    requires 1 <= i <= end0pos + 1 && end0pos <= 63 && du[end0pos] != 0
    requires AcInRange(du)
    ensures SmallRuns(Runs(du, i, end0pos))
    decreases end0pos + 1 - i
  {
    if i <= end0pos {
      var j := SkipZeros(du, i, end0pos);
      RunsSmall(du, j + 1, end0pos);
      SmallCategory(du[j]);
    }
  }

  /** One run per non-zero coefficient. */
  lemma {:induction false} RunsCountNonZeros(du: Block, i: nat, end0pos: nat)
    requires 1 <= i <= end0pos + 1 && end0pos <= 63 && du[end0pos] != 0
    ensures |Runs(du, i, end0pos)| == NonZeros(du, i, end0pos + 1)
    decreases end0pos + 1 - i
  {
    if i <= end0pos {
      var j := SkipZeros(du, i, end0pos);
      assert |Runs(du, i, end0pos)| == 1 + |Runs(du, j + 1, end0pos)|;
      RunsCountNonZeros(du, j + 1, end0pos);
      NonZerosOfRun(du, i, j, end0pos + 1);
    }
  }

  /** The runs lose nothing: expanded again they are the coefficients i..end0pos. */
  lemma {:induction false} RunsExpand(du: Block, i: nat, end0pos: nat)
    requires 1 <= i <= end0pos + 1 && end0pos <= 63 && du[end0pos] != 0
    ensures Expand(Runs(du, i, end0pos)) == du[i..end0pos + 1]
    decreases end0pos + 1 - i
  {
    if i <= end0pos {
      var j := SkipZeros(du, i, end0pos);
      var rs := Runs(du, i, end0pos);
      RunsExpand(du, j + 1, end0pos);
      assert rs[0] == Run(j - i, du[j]) && rs[1..] == Runs(du, j + 1, end0pos);
      assert du[i..j] == Zeros(j - i);
      assert du[i..end0pos + 1] == du[i..j] + [du[j]] + du[j + 1..end0pos + 1];
    }
  }

  lemma {:induction false} RunsEventsNoEob(rs: seq<Run>, htac: Table)
    requires ValidRuns(rs)
    ensures CountSymbol(RunsEvents(rs, htac), EOB) == 0
  {
    if |rs| > 0 {
      RunsEventsNoEob(rs[1..], htac);
      RunEventsNoEob(rs[0].zeros, rs[0].value, htac);
      CountSymbolAppend(RunEvents(rs[0].zeros, rs[0].value, htac), RunsEvents(rs[1..], htac), EOB);
    }
  }

  lemma {:induction false} RunsEventsCount(rs: seq<Run>, htac: Table)
    requires ValidRuns(rs) && SmallRuns(rs)
    ensures CountRunSymbols(RunsEvents(rs, htac)) == |rs|
  {
    if |rs| > 0 {
      RunsEventsCount(rs[1..], htac);
      RunEventsOneCodingSymbol(rs[0].zeros, rs[0].value, htac);
      CountRunSymbolsAppend(RunEvents(rs[0].zeros, rs[0].value, htac), RunsEvents(rs[1..], htac));
    }
  }

  /** A run list followed by EOB: the EOB is the only one and it comes last. */
  lemma CountsWithEob(runs: seq<Event>, htac: Table)
    requires CountSymbol(runs, EOB) == 0
    ensures CountSymbol(runs + [Huff(htac, EOB)], EOB) == 1
    ensures CountRunSymbols(runs + [Huff(htac, EOB)]) == CountRunSymbols(runs)
  {
    assert [Huff(htac, EOB)][1..] == [];
    CountSymbolAppend(runs, [Huff(htac, EOB)], EOB);
    CountRunSymbolsAppend(runs, [Huff(htac, EOB)]);
  }

  /**
   * EOB is written exactly once when the 63rd coefficient is zero and never
   * otherwise, and when written it is the last symbol of the block.
   */
  lemma EobIffLastIsZero(du: Block, htac: Table)
    ensures CountSymbol(EncodeAc(du, htac), EOB) == (if du[63] == 0 then 1 else 0)
    ensures var r := EncodeAc(du, htac); r[|r| - 1] == Huff(htac, EOB) <==> du[63] == 0
  {
    hide EncodeAc, Runs, RunsEvents;
    var end0pos := LastNonZero(du, 63);
    var r := EncodeAc(du, htac);
    if end0pos == 0 {
      EncodeAcAllZero(du, htac);
      assert r == [] + [Huff(htac, EOB)];
      CountsWithEob([], htac);
    } else {
      var runs := RunsEvents(Runs(du, 1, end0pos), htac);
      EncodeAcOfRuns(du, htac, end0pos);
      RunsEventsNoEob(Runs(du, 1, end0pos), htac);
      if end0pos == 63 {
        assert r == runs;
      } else {
        CountsWithEob(runs, htac);
      }
    }
  }

  /** Exactly one run/size symbol is written per non-zero AC coefficient. */
  lemma RunSymbolsCountNonZeros(du: Block, htac: Table)
    requires AcInRange(du)
    ensures CountRunSymbols(EncodeAc(du, htac)) == NonZeros(du, 1, 64)
  {
    hide EncodeAc, Runs, RunsEvents;
    var end0pos := LastNonZero(du, 63);
    var r := EncodeAc(du, htac);
    NonZerosSplit(du, 1, end0pos + 1, 64);
    NonZerosOfZeros(du, end0pos + 1, 64);
    if end0pos == 0 {
      EncodeAcAllZero(du, htac);
      assert r == [] + [Huff(htac, EOB)];
      CountsWithEob([], htac);
    } else {
      var rs := Runs(du, 1, end0pos);
      var runs := RunsEvents(rs, htac);
      EncodeAcOfRuns(du, htac, end0pos);
      RunsSmall(du, 1, end0pos);
      RunsEventsCount(rs, htac);
      RunsCountNonZeros(du, 1, end0pos);
      RunsEventsNoEob(rs, htac);
      if end0pos == 63 {
        assert r == runs;
      } else {
        CountsWithEob(runs, htac);
      }
    }
  }
}

=== FILE: magnitude.dfy ===
/**
 * Magnitude categories and the extra bits that follow a Huffman symbol
 * (section F.1.2.1 and Table F.1 of ITU-T T.81), together with the
 * decoder's EXTEND procedure (section F.2.2.1), which is their inverse.
 *
 * The encoder calls `JpegCalcBits(v, bits)` for every non-zero DC
 * difference and every non-zero AC coefficient; `bits[1]` is the category
 * SSSS and `bits[0]` the SSSS-bit field written after the symbol.  Both
 * are uint16_t, so a field wider than 16 bits keeps only its low 16 bits
 * (Field).
 */
module Magnitude {

  /** 2 to the power n. */
  function Pow2(n: nat): (r: nat)
    ensures r >= 1
  {
    if n == 0 then 1 else 2 * Pow2(n - 1)
  }

  function Abs(v: int): nat
  {
    if v < 0 then -v else v
  }

  lemma {:induction false} Pow2Monotone(a: nat, b: nat)
    requires a <= b
    ensures Pow2(a) <= Pow2(b)
    decreases b
  {
    if a < b {
      Pow2Monotone(a, b - 1);
    }
  }

  /** Number of binary digits of n; zero has none. */
  function BitLength(n: nat): (r: nat)
    ensures r == 0 <==> n == 0
    ensures r > 0 ==> Pow2(r - 1) <= n < Pow2(r)
  {
    if n == 0 then 0 else 1 + BitLength(n / 2)
  }

  /**
   * The magnitude category SSSS of a DC difference or AC coefficient:
   * the number of bits of |v|, so that category s holds exactly the values
   * 2^(s-1) <= |v| < 2^s (Table F.1).
   */
  function Category(v: int): (s: nat)
    ensures s == 0 <==> v == 0
    ensures s > 0 ==> Pow2(s - 1) <= Abs(v) < Pow2(s)
  {
    BitLength(Abs(v))
  }

  /** Table F.1 read backwards: a value in the range of category s has category s. */
  lemma CategoryUnique(v: int, s: nat)
    requires s > 0 && Pow2(s - 1) <= Abs(v) < Pow2(s)
    ensures Category(v) == s
  {
    var c := Category(v);
    if c < s {
      Pow2Monotone(c, s - 1);
    } else if c > s {
      Pow2Monotone(s, c - 1);
    }
  }

  lemma ModOfShifted(a: int, m: int)
    requires m > 0 && -m <= a < 0
    ensures a % m == a + m
  {
    var q := a / m;
    var r := a % m;
    assert a == q * m + r;
    assert (q + 1) * m == a + m - r;
  }

  lemma ModOfSmall(a: int, m: int)
    requires 0 <= a < m
    ensures a % m == a
  {
  }

  /**
   * The SSSS-bit field written after the category: the value itself when
   * positive, and v - 1 + 2^SSSS when negative (see BitsAreLowBits).
   */
  function Bits(v: int): (b: nat)
    ensures b < Pow2(Category(v))
    ensures v != 0 ==> (v > 0 <==> b >= Pow2(Category(v) - 1))
  {
    var s := Category(v);
    assert s > 0 ==> Pow2(s) == 2 * Pow2(s - 1);
    if v < 0 then v - 1 + Pow2(s) else v
  }

  /**
   * The field is the low SSSS bits of v when v is positive and of v - 1
   * when v is negative, i.e. of the two's-complement representation that
   * the encoder masks.
   */
  lemma BitsAreLowBits(v: int)
    ensures v >= 0 ==> Bits(v) == v % Pow2(Category(v))
    ensures v < 0 ==> Bits(v) == (v - 1) % Pow2(Category(v))
  {
    var m := Pow2(Category(v));
    if v < 0 {
      assert Category(v) > 0 ==> m == 2 * Pow2(Category(v) - 1);
      ModOfShifted(v - 1, m);
    } else {
      ModOfSmall(v, m);
    }
  }

  /** A value below 2^n in magnitude has at most n bits. */
  lemma CategoryAtMost(v: int, n: nat)
    requires Abs(v) < Pow2(n)
    ensures Category(v) <= n
  {
    var c := Category(v);
    if c > n {
      Pow2Monotone(n, c - 1);
    }
  }

  lemma Pow2Sixteen()
    ensures Pow2(16) == 0x10000
  {
    assert Pow2(4) == 16;
    assert Pow2(8) == 256;
  }

  /**
   * The field as JpegCalcBits leaves it in bits[0], a uint16_t (lines 103
   * and 119): the low 16 bits of the Table F.1 field.  A field of at most
   * 16 bits is kept whole.
   */
  function Field(v: int): (f: nat)
    ensures f < 0x10000
    ensures Category(v) <= 16 ==> f == Bits(v)
  {
    FieldFitsSixteenBits(v);
    Bits(v) % 0x10000
  }

  lemma FieldFitsSixteenBits(v: int)
    ensures Category(v) <= 16 ==> Bits(v) < 0x10000
  {
    if Category(v) <= 16 {
      Pow2Monotone(Category(v), 16);
      Pow2Sixteen();
    }
  }

  /** Every value below 2^16 in magnitude keeps its whole field. */
  lemma FieldOfSmall(v: int)
    requires Abs(v) < 0x10000
    ensures Category(v) <= 16 && Field(v) == Bits(v)
  {
    Pow2Sixteen();
    CategoryAtMost(v, 16);
  }

  /**
   * From 2^16 on the field loses its high bits: 2^16 has category 17 and
   * is stored as the field 0, which EXTEND reads as -(2^17 - 1).
   */
  lemma WideFieldTruncated()
    ensures Category(0x10000) == 17 && Field(0x10000) == 0
    ensures Extend(Field(0x10000), Category(0x10000)) != 0x10000
  {
    Pow2Sixteen();
    CategoryBoundaries(17);
  }

  /**
   * The decoder's EXTEND: an s-bit field whose leading bit is 0 stands for
   * a negative value, one whose leading bit is 1 for the value itself.
   */
  function Extend(b: nat, s: nat): int
  {
    if s == 0 then 0
    else if b < Pow2(s - 1) then b - Pow2(s) + 1
    else b
  }

  /** Decoding the extra bits of a non-zero value gives the value back. */
  lemma MagnitudeRoundTrip(v: int)
    requires v != 0
    ensures Extend(Bits(v), Category(v)) == v
  {
    var s := Category(v);
    assert Pow2(s) == 2 * Pow2(s - 1);
  }

  /**
   * Conversely every s-bit field is the extra-bits field of exactly one
   * value of category s, so the pair (SSSS, bits) loses nothing.
   */
  lemma ExtendRoundTrip(b: nat, s: nat)
    requires 1 <= s && b < Pow2(s)
    ensures Extend(b, s) != 0
    ensures Category(Extend(b, s)) == s
    ensures Bits(Extend(b, s)) == b
  {
    var v := Extend(b, s);
    assert Pow2(s) == 2 * Pow2(s - 1);
    CategoryUnique(v, s);
  }

  /** The category boundaries: 2^(n-1) starts category n and 2^(n-1) - 1 ends category n - 1. */
  lemma CategoryBoundaries(n: nat)
    requires n >= 1
    ensures Category(Pow2(n - 1)) == n && Category(-(Pow2(n - 1) as int)) == n
    ensures Category(Pow2(n - 1) - 1) == n - 1 && Category(1 - Pow2(n - 1)) == n - 1
  {
    assert Pow2(n) == 2 * Pow2(n - 1);
    CategoryUnique(Pow2(n - 1), n);
    CategoryUnique(-(Pow2(n - 1) as int), n);
    if n >= 2 {
      assert Pow2(n - 1) == 2 * Pow2(n - 2);
      CategoryUnique(Pow2(n - 1) - 1, n - 1);
      CategoryUnique(1 - Pow2(n - 1), n - 1);
    }
  }
}

=== FILE: raster.dfy ===
/**
 * The MCU walk of JpegWriteBlockSubs (lines 188-229) and JpegWriteBlockFull
 * (lines 236-267): MCU rows top to bottom, and in each row first the MCUs
 * whose S columns all exist (the fast path, x < width & ~(S - 1)), then the
 * MCU at the right edge, if any, whose missing columns the edge path pads
 * by clamping.  The fast-path test looks at columns only: on the last MCU
 * row a fast MCU may reach below the image.
 */
module Raster {
  import opened Sampling

  /** The origin of an MCU and whether the driver takes the fast path for it. */
  datatype Mcu = Mcu(x: nat, y: nat, fast: bool)

  /** The number of S-pixel steps from 0 that stay below n. */
  function Ceil(n: nat, size: nat): nat
    requires size >= 1
  {
    n / size + (if n % size == 0 then 0 else 1)
  }

  /** MCU k of a raster scan with `cols` MCUs per row. */
  function McuAt(k: nat, cols: nat, size: nat, width: nat): Mcu
    requires cols >= 1
  {
    var x := size * (k % cols);
    Mcu(x, size * (k / cols), x + size <= width)
  }

  /** All MCUs of a width x height image, in raster order. */
  function Grid(width: nat, height: nat, size: nat): (g: seq<Mcu>)
    requires size >= 1
    ensures |g| == Ceil(height, size) * Ceil(width, size)
    ensures forall k :: 0 <= k < |g| ==> Ceil(width, size) >= 1 && g[k] == McuAt(k, Ceil(width, size), size, width)
  {
    var cols := Ceil(width, size);
    seq(Ceil(height, size) * cols, k requires 0 <= k < Ceil(height, size) * cols => McuAt(k, cols, size, width))
  }

  lemma MulMono(a: nat, b: nat, size: nat)
    requires a <= b
    ensures size * a <= size * b
  {
    assert size * b == size * a + size * (b - a);
  }

  /** Step i of size S still fits all S of its positions below n exactly when i < n / S. */
  lemma FitsIff(i: nat, n: nat, size: nat)
    requires size >= 1
    ensures size * i + size <= n <==> i < n / size
  {
    var q := n / size;
    if i < q {
      MulMono(i + 1, q, size);
    } else {
      MulMono(q, i, size);
    }
  }

  /** Step i of size S starts below n exactly when i < Ceil(n, S). */
  lemma BelowIff(i: nat, n: nat, size: nat)
    requires size >= 1
    ensures size * i < n <==> i < Ceil(n, size)
  {
    var q := n / size;
    if i < q {
      MulMono(i + 1, q, size);
    } else if i == q {
    } else {
      MulMono(q + 1, i, size);
    }
  }

  lemma CeilAtLeast(n: nat, size: nat)
    requires size >= 1
    ensures n / size <= Ceil(n, size)
  {
  }

  /**
   * The fast-path test x < width & ~(S - 1), with the mask written as
   * width - width % S, holds for the MCU at x = S * i exactly when the MCU
   * has all S of its columns inside the image.
   */
  lemma FastIffWhole(i: nat, width: nat, size: nat)
    requires size >= 1
    ensures size * i < width - width % size <==> size * i + size <= width
  {
    FitsIff(i, width, size);
    var q := width / size;
    if i < q {
      MulMono(i + 1, q, size);
    } else {
      MulMono(q, i, size);
    }
  }

  /** The MCUs produced so far are the first ones of the raster grid. */
  predicate RasterPrefix(mcus: seq<Mcu>, cols: nat, size: nat, width: nat)
  {
    (|mcus| == 0 || cols >= 1) &&
    forall k :: 0 <= k < |mcus| ==> cols >= 1 && mcus[k] == McuAt(k, cols, size, width)
  }

  /** The next MCU of row yi is at column xi, and is fast exactly when its columns fit. */
  lemma RasterAppend(mcus: seq<Mcu>, yi: nat, xi: nat, cols: nat, size: nat, width: nat, fast: bool)
    requires RasterPrefix(mcus, cols, size, width)
    requires |mcus| == yi * cols + xi && xi < cols
    requires fast <==> size * xi + size <= width
    ensures RasterPrefix(mcus + [Mcu(size * xi, size * yi, fast)], cols, size, width)
  {
    RowMajor(yi, xi, cols);
    assert McuAt(yi * cols + xi, cols, size, width) == Mcu(size * xi, size * yi, fast);
  }

  /** Unfolding step: a raster prefix of full length is the grid. */
  lemma RasterComplete(mcus: seq<Mcu>, width: nat, height: nat, size: nat)
    requires size >= 1
    requires RasterPrefix(mcus, Ceil(width, size), size, width)
    requires |mcus| == Ceil(height, size) * Ceil(width, size)
    ensures mcus == Grid(width, height, size)
  {
  }

  /** Unfolding step: nothing produced is a raster prefix. */
  lemma RasterEmpty(cols: nat, size: nat, width: nat)
    ensures RasterPrefix([], cols, size, width)
  {
  }

  /**
   * The loops of the drivers: MCU rows while y < height, and for each the
   * row walk below.  The result is the raster grid.
   */
  method McuWalk(width: nat, height: nat, size: nat) returns (mcus: seq<Mcu>)
    requires size >= 1
    ensures mcus == Grid(width, height, size)
  {
    hide *;
    var cols := Ceil(width, size);
    var rows := Ceil(height, size);
    mcus := [];
    RasterEmpty(cols, size, width);
    var y, yi := 0, 0;
    while y < height
      invariant y == size * yi && yi <= rows
      invariant |mcus| == yi * cols && RasterPrefix(mcus, cols, size, width)
    {
      BelowIff(yi, height, size);
      mcus := McuRow(mcus, y, yi, width, size);
      y, yi := y + size, yi + 1;
    }
    BelowIff(yi, height, size);
    RasterComplete(mcus, width, height, size);
  }

  /**
   * One MCU row at y = S * yi: the fast MCUs while x < width - width % S,
   * then the edge MCUs while x < width.  An MCU is taken on the fast path
   * exactly when all S of its columns exist.
   */
  method McuRow(mcus: seq<Mcu>, y: nat, yi: nat, width: nat, size: nat) returns (mcus': seq<Mcu>)
    requires size >= 1 && y == size * yi
    requires |mcus| == yi * Ceil(width, size) && RasterPrefix(mcus, Ceil(width, size), size, width)
    ensures |mcus'| == (yi + 1) * Ceil(width, size) && RasterPrefix(mcus', Ceil(width, size), size, width)
  {
    hide *;
    var cols := Ceil(width, size);
    var widthFast := width - width % size;
    mcus' := mcus;
    var x, xi := 0, 0;
    while x < widthFast
      invariant x == size * xi && xi <= width / size
      invariant |mcus'| == yi * cols + xi && RasterPrefix(mcus', cols, size, width)
    {
      FastIffWhole(xi, width, size);
      FitsIff(xi, width, size);
      BelowIff(xi, width, size);
      RasterAppend(mcus', yi, xi, cols, size, width, true);
      mcus' := mcus' + [Mcu(x, y, true)];
      x, xi := x + size, xi + 1;
    }
    FastIffWhole(xi, width, size);
    FitsIff(xi, width, size);
    CeilAtLeast(width, size);
    while x < width
      invariant x == size * xi && width / size <= xi <= cols
      invariant |mcus'| == yi * cols + xi && RasterPrefix(mcus', cols, size, width)
    {
      BelowIff(xi, width, size);
      FitsIff(xi, width, size);
      RasterAppend(mcus', yi, xi, cols, size, width, false);
      mcus' := mcus' + [Mcu(x, y, false)];
      x, xi := x + size, xi + 1;
    }
    BelowIff(xi, width, size);
  }

  // ---------------------------------------------------------------------
  // Which pixels an MCU's buffers hold

  /**
   * The image pixel held at position pos of the S x S buffers of MCU m:
   * the row and column clamped to the image as the edge path does (lines
   * 210, 213, 252 and 255).  EdgeGather fills the buffer this way, and
   * FastPathRows, the fast path's row walk with its pointer stopped on the
   * last row, reads the same rows (see Findings in README.md).
   */
  function BufferPixel(m: Mcu, pos: nat, size: nat, width: nat, height: nat): (rc: (int, int))
    requires size >= 1 && width >= 1 && height >= 1
    ensures 0 <= rc.0 < height && 0 <= rc.1 < width
  {
    (ClampRow(m.y + pos / size, height), ClampCol(m.x + pos % size, width))
  }

  /** A fast MCU needs no column clamping: all S of its columns exist. */
  lemma FastMcuColumnsInside(width: nat, height: nat, size: nat, k: nat, pos: nat)
    requires size >= 1 && width >= 1 && height >= 1
    requires k < |Grid(width, height, size)| && Grid(width, height, size)[k].fast
    ensures BufferPixel(Grid(width, height, size)[k], pos, size, width, height).1
      == Grid(width, height, size)[k].x + pos % size
  {
  }

  lemma MulBound(q: nat, c: nat, rows: nat, cols: nat)
    requires q < rows && c < cols
    ensures q * cols + c < rows * cols
  {
    assert (q + 1) * cols <= rows * cols by {
      assert rows * cols == (q + 1) * cols + (rows - q - 1) * cols;
    }
  }

  lemma DivMod(n: nat, size: nat)
    requires size >= 1
    ensures n == size * (n / size) + n % size && n % size < size
  {
  }

  /** MCU q * cols + c of the raster is in MCU row q, column c. */
  lemma McuAtRowMajor(q: nat, c: nat, cols: nat, size: nat, width: nat)
    requires c < cols
    ensures McuAt(q * cols + c, cols, size, width) == Mcu(size * c, size * q, size * c + size <= width)
  {
    RowMajor(q, c, cols);
  }

  lemma BufferPixelInside(m: Mcu, pos: nat, size: nat, width: nat, height: nat)
    requires size >= 1 && m.y + pos / size < height && m.x + pos % size < width
    ensures BufferPixel(m, pos, size, width, height) == (m.y + pos / size, m.x + pos % size)
  {
  }

  /**
   * Every pixel of the image is held, unclamped, at some position of the
   * luma buffer of some MCU of the grid: the raster walk leaves no pixel
   * out.  This is the clamped reading of BufferPixel (the edge path, or
   * the corrected fast path); the fast path as written reads other rows.
   */
  lemma GridCoversImage(width: nat, height: nat, size: nat, row: nat, col: nat) returns (k: nat, pos: nat)
    requires size >= 1 && row < height && col < width
    ensures k < |Grid(width, height, size)| && pos < size * size
    ensures Grid(width, height, size)[k].y + pos / size == row
    ensures Grid(width, height, size)[k].x + pos % size == col
    ensures BufferPixel(Grid(width, height, size)[k], pos, size, width, height) == (row, col)
  {
    hide *;
    var cols, rows := Ceil(width, size), Ceil(height, size);
    var qr, qc := row / size, col / size;
    DivMod(row, size);
    DivMod(col, size);
    BelowIff(qr, height, size);
    BelowIff(qc, width, size);
    k := qr * cols + qc;
    MulBound(qr, qc, rows, cols);
    pos := (row % size) * size + col % size;
    MulBound(row % size, col % size, size, size);
    RowMajor(row % size, col % size, size);
    McuAtRowMajor(qr, qc, cols, size, width);
    var m := Grid(width, height, size)[k];
    assert m.y + pos / size == row && m.x + pos % size == col;
    BufferPixelInside(m, pos, size, width, height);
  }
}

=== FILE: sampling.dfy ===
/**
 * Which source pixels fill the sample buffers of one MCU, and how the 4:2:0
 * buffers are cut into blocks.  Sample values (colour conversion, chroma
 * averaging) are floating point and are not modelled; only the rows,
 * columns and buffer positions they are read from and written to are.
 */
module Sampling {

  function Min(a: int, b: int): int
  {
    if a <= b then a else b
  }

  /**
   * Lines 210 and 252: the edge path reads image row `row` while it exists
   * and the last row once past it.
   */
  function ClampRow(row: int, height: int): (r: int)
    requires height >= 1
    ensures r < height
    ensures row >= 0 ==> r >= 0
  {
    if row < height then row else height - 1
  }

  /** Lines 213 and 255: the same for columns. */
  function ClampCol(col: int, width: int): (c: int)
    requires width >= 1
    ensures c < width
    ensures col >= 0 ==> c >= 0
  {
    ClampRow(col, width)
  }

  function Dist(a: int, b: int): nat
  {
    if a <= b then b - a else a - b
  }

  /**
   * Clamp-to-edge replicates the nearest valid sample: a row inside the
   * image is read as itself, and a row past the end is read as the valid
   * row closest to it.
   */
  lemma ClampIsNearest(row: int, height: int)
    requires height >= 1 && row >= 0
    ensures 0 <= ClampRow(row, height) < height
    ensures row < height <==> ClampRow(row, height) == row
    ensures forall q :: 0 <= q < height ==> Dist(row, ClampRow(row, height)) <= Dist(row, q)
  {
  }

  /**
   * The image row that buffer row r of the fast path reads, as written:
   * the pointer starts at `red + x`, on row 0 whatever y is, and moves on
   * while the buffer row is below height - y.  Within the remaining height
   * it reads row r; from there on it stays on row height - y.
   */
  function FastSourceRowAsWritten(y: int, r: int, height: int): (row: int)
    requires 0 <= y < height && r >= 0
    ensures 0 <= row <= r
    ensures row == height - y <==> r >= height - y
  {
    Min(r, height - y)
  }

  /**
   * Lines 151-164 of RgbToYuv, called as on lines 196 and 243 with the
   * `height` argument height - y: the pointer moves to the next source row
   * after buffer row `row` only while `row < height - y`.  The result is
   * the row read for each of the `size` buffer rows.
   */
  method RgbToYuvRows(y: int, height: int, size: nat) returns (src: seq<int>)
    requires 0 <= y < height
    ensures |src| == size
    ensures forall r :: 0 <= r < size ==> src[r] == FastSourceRowAsWritten(y, r, height)
  {
    var rows := height - y;
    src := [];
    var cur := 0;
    var row := 0;
    while row < size
      invariant 0 <= row <= size && |src| == row
      invariant cur == Min(row, rows)
      invariant forall r :: 0 <= r < row ==> src[r] == FastSourceRowAsWritten(y, r, height)
    {
      src := src + [cur];
      if row < rows {
        cur := cur + 1;
      }
      row := row + 1;
    }
  }

  /**
   * On the last, partial MCU row the fast path reads the row just past the
   * image: RgbToYuvRows(0, 4, 16) yields row 4 for buffer row 4.
   */
  lemma FastPathReadsPastLastRow()
    ensures FastSourceRowAsWritten(0, 4, 4) == 4
    ensures ClampRow(0 + 4, 4) == 3
  {
  }

  /** From the second MCU row on, the fast path reads rows from the top of the image again. */
  lemma FastPathIgnoresMcuRow()
    ensures FastSourceRowAsWritten(16, 0, 32) == 0
    ensures ClampRow(16 + 0, 32) == 16
  {
  }

  /**
   * The same walk with the pointer stopped on the last valid row and
   * started on row y: the buffer row r then holds image row
   * ClampRow(y + r, height), which is what the edge path reads.
   */
  method FastPathRows(y: int, height: int, size: nat) returns (src: seq<int>)
    requires 0 <= y < height
    ensures |src| == size
    ensures forall r :: 0 <= r < size ==> src[r] == ClampRow(y + r, height)
  {
    src := [];
    var cur := y;
    var row := 0;
    while row < size
      invariant 0 <= row <= size && |src| == row
      invariant cur == Min(y + row, height - 1)
      invariant forall r :: 0 <= r < row ==> src[r] == ClampRow(y + r, height)
    {
      src := src + [cur];
      if row < height - y - 1 {
        cur := cur + 1;
      }
      row := row + 1;
    }
  }

  /**
   * The as-written fast path agrees with clamping exactly on the rows that
   * exist, when the MCU row is the first one; below the image it is one
   * row too far.
   */
  lemma FastPathAsWrittenOnFirstRow(r: int, height: int)
    requires height >= 1 && r >= 0
    ensures r < height ==> FastSourceRowAsWritten(0, r, height) == ClampRow(r, height)
    ensures r >= height ==> FastSourceRowAsWritten(0, r, height) == ClampRow(r, height) + 1
  {
  }

  /**
   * Lines 208-219 and 250-261: the edge path fills the S x S buffer in
   * row-major order, position pos = (row - y) * S + (col - x), from the
   * pixel at the clamped row and column.  `pixel` stands for the three
   * reads red[offs], green[offs], blue[offs].
   */
  method EdgeGather<T>(pixel: (int, int) -> T, x: nat, y: nat, width: int, height: int, size: nat)
    returns (buf: seq<T>)
    requires width >= 1 && height >= 1 && size >= 1
    ensures |buf| == size * size
    ensures forall pos :: 0 <= pos < |buf| ==>
      buf[pos] == pixel(ClampRow(y + pos / size, height), ClampCol(x + pos % size, width))
  {
    buf := [];
    var row := y;
    while row < y + size
      invariant y <= row <= y + size
      invariant |buf| == (row - y) * size
      invariant forall pos :: 0 <= pos < |buf| ==>
        buf[pos] == pixel(ClampRow(y + pos / size, height), ClampCol(x + pos % size, width))
    {
      var rowOffs := ClampRow(row, height);
      var col := x;
      while col < x + size
        invariant x <= col <= x + size
        invariant |buf| == (row - y) * size + (col - x)
        invariant forall pos :: 0 <= pos < |buf| ==>
          buf[pos] == pixel(ClampRow(y + pos / size, height), ClampCol(x + pos % size, width))
      {
        RowMajor(row - y, col - x, size);
        buf := buf + [pixel(rowOffs, ClampCol(col, width))];
        col := col + 1;
      }
      row := row + 1;
    }
  }

  /** Position q * size + c of a row-major buffer is row q, column c. */
  lemma RowMajor(q: nat, c: nat, size: nat)
    requires c < size
    ensures (q * size + c) / size == q && (q * size + c) % size == c
  {
    var n := q * size + c;
    var q', c' := n / size, n % size;
    if q' < q {
      MulLess(q', q, size);
    } else if q < q' {
      MulLess(q, q', size);
    }
  }

  lemma MulLess(a: nat, b: nat, size: nat)
    requires a < b
    ensures (a + 1) * size <= b * size
  {
  }

  /**
   * Lines 197-200: the four luma blocks of a 16 x 16 buffer start at
   * offsets 0, 8, 128 and 136 and are read with stride 16.
   */
  function LumaOffset(b: nat): (o: nat)
    requires b < 4
    ensures o == 128 * (b / 2) + 8 * (b % 2)
  {
    if b == 0 then 0 else if b == 1 then 8 else if b == 2 then 128 else 136
  }

  /** Sample (r, c) of luma block b sits at row 8 * (b / 2) + r and column 8 * (b % 2) + c of the MCU. */
  lemma LumaBlockPlacement(b: nat, r: nat, c: nat)
    requires b < 4 && r < 8 && c < 8
    ensures LumaOffset(b) + r * 16 + c == (8 * (b / 2) + r) * 16 + 8 * (b % 2) + c
    ensures LumaOffset(b) + r * 16 + c < 256
  {
  }

  /** The block, row and column a luma buffer position belongs to. */
  function LumaSource(pos: nat): (brc: (nat, nat, nat))
    requires pos < 256
    ensures brc.0 < 4 && brc.1 < 8 && brc.2 < 8
    ensures LumaOffset(brc.0) + brc.1 * 16 + brc.2 == pos
  {
    var row := pos / 16;
    var col := pos % 16;
    (2 * (row / 8) + col / 8, row % 8, col % 8)
  }

  /** The four blocks tile the buffer: distinct (block, row, column) triples read distinct positions. */
  lemma LumaBlocksDisjoint(b1: nat, r1: nat, c1: nat, b2: nat, r2: nat, c2: nat)
    requires b1 < 4 && r1 < 8 && c1 < 8 && b2 < 4 && r2 < 8 && c2 < 8
    requires LumaOffset(b1) + r1 * 16 + c1 == LumaOffset(b2) + r2 * 16 + c2
    ensures b1 == b2 && r1 == r2 && c1 == c2
  {
    LumaBlockPlacement(b1, r1, c1);
    LumaBlockPlacement(b2, r2, c2);
    var row1, col1 := 8 * (b1 / 2) + r1, 8 * (b1 % 2) + c1;
    var row2, col2 := 8 * (b2 / 2) + r2, 8 * (b2 % 2) + c2;
    assert row1 * 16 + col1 == row2 * 16 + col2;
    assert row1 == row2 && col1 == col2 by {
      RowColumnUnique(row1, col1, row2, col2);
    }
  }

  lemma RowColumnUnique(row1: nat, col1: nat, row2: nat, col2: nat)
    requires col1 < 16 && col2 < 16 && row1 * 16 + col1 == row2 * 16 + col2
    ensures row1 == row2 && col1 == col2
  {
  }

  /**
   * Lines 168-182 (SubUv): chroma output i = 8 * yy + k averages the four
   * samples of the 2 x 2 square at rows 2yy, 2yy + 1 and columns 2k, 2k + 1
   * of the 16 x 16 chroma buffer.  These are its four read positions.
   */
  function SubUvTaps(i: nat): (taps: seq<nat>)
    requires i < 64
    ensures |taps| == 4
    ensures forall j :: 0 <= j < 4 ==> taps[j] < 256
  {
    var yy := i / 8;
    var k := i % 8;
    var base := 32 * yy + 2 * k;
    [base, base + 1, base + 16, base + 17]
  }

  /** The SubUv output that reads chroma buffer position pos. */
  function SubUvOwner(pos: nat): (i: nat)
    requires pos < 256
    ensures i < 64 && pos in SubUvTaps(i)
  {
    var i := (pos / 32) * 8 + (pos % 16) / 2;
    OwnerTaps(pos);
    i
  }

  lemma OwnerTaps(pos: nat)
    requires pos < 256
    ensures (pos / 32) * 8 + (pos % 16) / 2 < 64
    ensures pos in SubUvTaps((pos / 32) * 8 + (pos % 16) / 2)
  {
    var yy, k := pos / 32, (pos % 16) / 2;
    RowMajor(yy, k, 8);
    var half, odd := ChromaPosition(pos);
    assert pos == SubUvTaps(yy * 8 + k)[2 * half + odd];
  }

  /** Position pos of the chroma buffer is 32 * yy + 16 * half + 2 * k + odd. */
  lemma ChromaPosition(pos: nat) returns (half: nat, odd: nat)
    requires pos < 256
    ensures half < 2 && odd < 2
    ensures pos == 32 * (pos / 32) + 16 * half + 2 * ((pos % 16) / 2) + odd
  {
    half, odd := (pos % 32) / 16, pos % 2;
  }

  /** Each read position has only that owner: the 64 squares partition the 256 chroma samples. */
  lemma SubUvTapsOwned(i: nat, j: nat)
    requires i < 64 && j < 4
    ensures SubUvOwner(SubUvTaps(i)[j]) == i
  {
    hide SubUvTaps, SubUvOwner;
    var yy, k := i / 8, i % 8;
    var pos := SubUvTaps(i)[j];
    TapPosition(i, j);
    RowMajor(yy, 16 * (j / 2) + 2 * k + j % 2, 32);
    RowMajor(2 * yy + j / 2, 2 * k + j % 2, 16);
    OwnerOf(pos);
  }

  /** Unfolding step: tap j of output i in closed form. */
  lemma TapPosition(i: nat, j: nat)
    requires i < 64 && j < 4
    ensures SubUvTaps(i)[j] == 32 * (i / 8) + 16 * (j / 2) + 2 * (i % 8) + j % 2
  {
  }

  /** Unfolding step of SubUvOwner, for proofs that hide it. */
  lemma OwnerOf(pos: nat)
    requires pos < 256
    ensures SubUvOwner(pos) == (pos / 32) * 8 + (pos % 16) / 2
  {
  }
}

=== FILE: zigzag.dfy ===
/**
 * Quantised coefficients are stored in zigzag order (section A.3.6 and
 * Figure A.6 of ITU-T T.81).  The encoder walks the 8x8 block in natural
 * (row-major) order j = y*8 + x and stores the value of natural position j
 * at DU[zz[j]], where zz is the table giving the zigzag index of every
 * natural position.
 */
module ZigZag {

  /** zz maps the 64 natural positions one-to-one into the 64 zigzag indices. */
  predicate IsPermutation(zz: seq<int>)
  {
    && |zz| == 64
    && (forall j :: 0 <= j < 64 ==> 0 <= zz[j] < 64)
    && (forall j, k :: 0 <= j < k < 64 ==> zz[j] != zz[k])
  }

  /** Zigzag index of natural position j: Figure A.6 of T.81, row by row. */
  function ZigZagOf(j: int): int
  {
    match j
    case 0 => 0 case 1 => 1 case 2 => 5 case 3 => 6 case 4 => 14 case 5 => 15 case 6 => 27 case 7 => 28
    case 8 => 2 case 9 => 4 case 10 => 7 case 11 => 13 case 12 => 16 case 13 => 26 case 14 => 29 case 15 => 42
    case 16 => 3 case 17 => 8 case 18 => 12 case 19 => 17 case 20 => 25 case 21 => 30 case 22 => 41 case 23 => 43
    case 24 => 9 case 25 => 11 case 26 => 18 case 27 => 24 case 28 => 31 case 29 => 40 case 30 => 44 case 31 => 53
    case 32 => 10 case 33 => 19 case 34 => 23 case 35 => 32 case 36 => 39 case 37 => 45 case 38 => 52 case 39 => 54
    case 40 => 20 case 41 => 22 case 42 => 33 case 43 => 38 case 44 => 46 case 45 => 51 case 46 => 55 case 47 => 60
    case 48 => 21 case 49 => 34 case 50 => 37 case 51 => 47 case 52 => 50 case 53 => 56 case 54 => 59 case 55 => 61
    case 56 => 35 case 57 => 36 case 58 => 48 case 59 => 49 case 60 => 57 case 61 => 58 case 62 => 62 case 63 => 63
    case _ => -1
  }

  /** Natural position of zigzag index k: the order in which Figure A.6 visits the block. */
  function NaturalOf(k: int): int
  {
    match k
    case 0 => 0 case 1 => 1 case 2 => 8 case 3 => 16 case 4 => 9 case 5 => 2 case 6 => 3 case 7 => 10
    case 8 => 17 case 9 => 24 case 10 => 32 case 11 => 25 case 12 => 18 case 13 => 11 case 14 => 4 case 15 => 5
    case 16 => 12 case 17 => 19 case 18 => 26 case 19 => 33 case 20 => 40 case 21 => 48 case 22 => 41 case 23 => 34
    case 24 => 27 case 25 => 20 case 26 => 13 case 27 => 6 case 28 => 7 case 29 => 14 case 30 => 21 case 31 => 28
    case 32 => 35 case 33 => 42 case 34 => 49 case 35 => 56 case 36 => 57 case 37 => 50 case 38 => 43 case 39 => 36
    case 40 => 29 case 41 => 22 case 42 => 15 case 43 => 23 case 44 => 30 case 45 => 37 case 46 => 44 case 47 => 51
    case 48 => 58 case 49 => 59 case 50 => 52 case 51 => 45 case 52 => 38 case 53 => 31 case 54 => 39 case 55 => 46
    case 56 => 53 case 57 => 60 case 58 => 61 case 59 => 54 case 60 => 47 case 61 => 55 case 62 => 62 case 63 => 63
    case _ => -1
  }

  /** The table the encoder indexes as JpegZigZag[j]. */
  const StandardZigZag: seq<int> := seq(64, j => ZigZagOf(j))

  /** The T.81 table is a permutation: NaturalOf undoes it at every position. */
  lemma StandardZigZagIsPermutation()
    ensures IsPermutation(StandardZigZag)
    ensures forall j :: 0 <= j < 64 ==> NaturalOf(StandardZigZag[j]) == j
  {
    forall j | 0 <= j < 64
      ensures 0 <= ZigZagOf(j) < 64 && NaturalOf(ZigZagOf(j)) == j
    {
      assert
        j == 0 || j == 1 || j == 2 || j == 3 || j == 4 || j == 5 || j == 6 || j == 7
        || j == 8 || j == 9 || j == 10 || j == 11 || j == 12 || j == 13 || j == 14 || j == 15
        || j == 16 || j == 17 || j == 18 || j == 19 || j == 20 || j == 21 || j == 22 || j == 23
        || j == 24 || j == 25 || j == 26 || j == 27 || j == 28 || j == 29 || j == 30 || j == 31
        || j == 32 || j == 33 || j == 34 || j == 35 || j == 36 || j == 37 || j == 38 || j == 39
        || j == 40 || j == 41 || j == 42 || j == 43 || j == 44 || j == 45 || j == 46 || j == 47
        || j == 48 || j == 49 || j == 50 || j == 51 || j == 52 || j == 53 || j == 54 || j == 55
        || j == 56 || j == 57 || j == 58 || j == 59 || j == 60 || j == 61 || j == 62 || j == 63;
    }
  }

  /**
   * The zigzag scan of Figure A.6 described geometrically: coefficients are
   * visited anti-diagonal by anti-diagonal (d = y + x), even diagonals from
   * bottom-left to top-right and odd ones from top-right to bottom-left.
   */
  function DiagonalScanIndex(y: int, x: int): int
  {
    var d := y + x;
    if d < 8 then
      d * (d + 1) / 2 + (if d % 2 == 0 then x else y)
    else
      64 - (15 - d) * (16 - d) / 2 + (if d % 2 == 0 then x else y) - (d - 7)
  }

  lemma {:induction false} DiagonalScanRow(y: int)
    requires 0 <= y < 8
    ensures forall x :: 0 <= x < 8 ==> ZigZagOf(y * 8 + x) == DiagonalScanIndex(y, x)
  {
    forall x | 0 <= x < 8
      ensures ZigZagOf(y * 8 + x) == DiagonalScanIndex(y, x)
    {
      assert y == 0 || y == 1 || y == 2 || y == 3 || y == 4 || y == 5 || y == 6 || y == 7;
      assert x == 0 || x == 1 || x == 2 || x == 3 || x == 4 || x == 5 || x == 6 || x == 7;
    }
  }

  /** The table of Figure A.6 is exactly the diagonal scan. */
  lemma ZigZagIsDiagonalScan()
    ensures forall y, x :: 0 <= y < 8 && 0 <= x < 8 ==> ZigZagOf(y * 8 + x) == DiagonalScanIndex(y, x)
  {
    forall y, x | 0 <= y < 8 && 0 <= x < 8
      ensures ZigZagOf(y * 8 + x) == DiagonalScanIndex(y, x)
    {
      DiagonalScanRow(y);
    }
  }

  function Image(zz: seq<int>, n: nat): set<int>
    requires n <= |zz|
  {
    set j | 0 <= j < n :: zz[j]
  }

  function Range(n: nat): (r: set<int>)
    ensures forall i :: i in r <==> 0 <= i < n
  {
    if n == 0 then {} else Range(n - 1) + {n - 1}
  }

  lemma {:induction false} ImageSize(zz: seq<int>, n: nat)
    requires IsPermutation(zz) && n <= 64
    ensures |Image(zz, n)| == n
  {
    if n > 0 {
      ImageSize(zz, n - 1);
      assert Image(zz, n) == Image(zz, n - 1) + {zz[n - 1]};
      assert zz[n - 1] !in Image(zz, n - 1);
    }
  }

  lemma {:induction false} RangeSize(n: nat)
    ensures |Range(n)| == n
  {
    if n > 0 {
      RangeSize(n - 1);
      assert Range(n - 1) * {n - 1} == {};
    }
  }

  /**
   * Pigeonhole: a one-to-one table reaches every zigzag index, so the
   * placement loop writes every entry of DU exactly once.
   */
  lemma PermutationIsOnto(zz: seq<int>)
    requires IsPermutation(zz)
    ensures forall i :: 0 <= i < 64 ==> i in zz
  {
    var img := Image(zz, 64);
    var all := Range(64);
    ImageSize(zz, 64);
    RangeSize(64);
    assert img <= all;
    var missing := all - img;
    assert |all| == |img| + |missing|;
    assert missing == {};
    forall i | 0 <= i < 64
      ensures i in zz
    {
      assert i in all;
      assert i in img;
      var j :| 0 <= j < 64 && zz[j] == i;
      assert zz[j] in zz;
    }
  }

  /** The natural position whose coefficient lands at zigzag index i. */
  function NaturalPosition(zz: seq<int>, i: int): (j: nat)
    requires IsPermutation(zz) && 0 <= i < 64
    ensures j < 64 && zz[j] == i
  {
    PermutationIsOnto(zz);
    Find(zz, i, 0)
  }

  function Find(zz: seq<int>, i: int, from: nat): (j: nat)
    requires from <= |zz| && i in zz[from..]
    ensures from <= j < |zz| && zz[j] == i
    decreases |zz| - from
  {
    if zz[from] == i then from
    else
      assert i in zz[from + 1..] by {
        assert zz[from..] == [zz[from]] + zz[from + 1..];
      }
      Find(zz, i, from + 1)
  }

  /** Offset in the sample buffer of natural position j: row j / 8, column j % 8. */
  function SampleIndex(j: nat, stride: nat): (i: nat)
    requires j < 64
    ensures i <= 7 * stride + 7
  {
    assert (j / 8) * stride <= 7 * stride by {
      MulLeq(j / 8, 7, stride);
    }
    (j / 8) * stride + j % 8
  }

  lemma MulLeq(a: nat, b: nat, c: nat)
    requires a <= b
    ensures a * c <= b * c
  {
  }

  lemma RowColumn(y: nat, x: nat, stride: nat)
    requires y < 8 && x < 8
    ensures y * 8 + x < 64
    ensures SampleIndex(y * 8 + x, stride) == y * stride + x
  {
    assert (y * 8 + x) / 8 == y;
    assert (y * 8 + x) % 8 == x;
  }

  /**
   * The placement loop of JpegProcessDu: the DCT output sample of natural
   * position j, read at row y = j / 8 and column x = j % 8 of a buffer with
   * the given stride, is scaled by fdtbl[j] (indexed by natural position),
   * rounded, and stored at DU[zz[j]].  The sample and scale types are left
   * abstract; `scaleRound` stands for Round(sample * scale).
   */
  method PlaceCoefficients<S, F>(cdu: seq<S>, stride: nat, fdtbl: seq<F>,
                                 scaleRound: (S, F) -> int, zz: seq<int>)
    returns (du: seq<int>)
    requires 7 * stride + 8 <= |cdu| && |fdtbl| == 64
    requires IsPermutation(zz)
    ensures |du| == 64
    ensures forall j :: 0 <= j < 64 ==>
      du[zz[j]] == scaleRound(cdu[SampleIndex(j, stride)], fdtbl[j])
    ensures forall i :: 0 <= i < 64 ==>
      du[i] == scaleRound(cdu[SampleIndex(NaturalPosition(zz, i), stride)], fdtbl[NaturalPosition(zz, i)])
  {
    du := seq(64, _ => 0);
    var y := 0;
    var j := 0;
    while y < 8
      invariant 0 <= y <= 8 && j == y * 8 && |du| == 64
      invariant forall k :: 0 <= k < j ==>
        du[zz[k]] == scaleRound(cdu[SampleIndex(k, stride)], fdtbl[k])
    {
      var x := 0;
      while x < 8
        invariant 0 <= x <= 8 && j == y * 8 + x && |du| == 64
        invariant forall k :: 0 <= k < j ==>
          du[zz[k]] == scaleRound(cdu[SampleIndex(k, stride)], fdtbl[k])
      {
        RowColumn(y, x, stride);
        var i := y * stride + x;
        du := du[zz[j] := scaleRound(cdu[i], fdtbl[j])];
        x := x + 1;
        j := j + 1;
      }
      y := y + 1;
    }
  }
}
